=== FILE: README.md ===
# dosocs2 utilities in Dafny

This project models the pure core of `dosocs2/util.py`, the helper module of
dosocs2, which writes SPDX documents for software packages. It covers:

- the **package verification code** (`gen_ver_code`): drop the excluded hashes,
  sort the rest, concatenate them, and SHA-1 the result;
- the **directory fingerprint** (`get_dir_hashes`, `allpaths`, `abs_to_rel`):
  the verification code of a directory tree, the map from every regular file to
  its SHA-256, and a second code over the hashes of the `./`-relative paths of
  the non-excluded files;
- the **archive extraction** (`archive_type`, `tempextract` with its inner
  `is_within_directory` and `safe_extract`), as a trace of effects: make the
  temporary directory, check each tar member, extract, yield, remove;
- the **name helpers** `bool_from_str`, `is_source` / `is_binary` /
  `spdx_filetype`, `package_friendly_name`, `file_name_for_id`,
  `gen_id_string` and `friendly_namespace_suffix`.

SHA-1 and SHA-256 are uninterpreted function parameters. A directory tree is a
finite map from component lists to `File(content)` or `Dir`. The libmagic
description and the UUID text are plain string parameters. Python's
`posixpath.join`, `normpath`, `abspath`, `relpath`, `commonprefix`,
`basename` and `splitext` are modelled exactly on strings in `Paths`, and so
are `sorted`, `str.join` and `str.split` in `Strs`.

Modules, one file each: `Results` (Option/Result), `Strs` (string order,
sorting, join/split, search, slicing), `VerCode`, `Paths`, `Fingerprint`,
`Extract`, `Names`.

Four behaviours of the code are worth stating plainly:

- **Duplicate hashes are kept.** `sorted` keeps repeats, so two copies of a
  hash change the verification code (`VerCode.DuplicatesNotCollapsed`).
- **A non-archive still gets a temporary directory.** `mkdtemp` runs before the
  file is classified, so the directory is made and then removed before the
  `TypeError` reaches the caller (`Extract.NonArchive`). A path that cannot be
  opened at all gets the same directory, but ends in the `OSError` from
  `tarfile.is_tarfile` instead (`Extract.UnopenablePath`).
- **A failing cleanup masks everything.** An exception from `shutil.rmtree` in
  the `finally` clause replaces any earlier one (`Extract.CleanupFailureMasks`).
- **The traversal check is a string-prefix test.** It accepts siblings such as
  `/t/abc/x` under `/t/ab` (see Findings).

The docstring of `get_dir_hashes` (dosocs2/util.py:183-189) calls the map's
keys relative paths and its values SHA-1 strings; the code keys the map by the
walked paths as `os.walk` reports them and stores SHA-256 digests, and the
model follows the code.

## Model

| member | source | states |
|---|---|---|
| VerCode.KeptCount | dosocs2/util.py:178 | every hash keeps its multiplicity unless it is excluded, in which case it disappears |
| VerCode.OrderIndependent | dosocs2/util.py:178-180 | any two inputs that are permutations of each other give the same verification code |
| VerCode.ExcludedNeverContribute | dosocs2/util.py:176-180 | inputs that agree on how often each non-excluded hash occurs give the same code, however many excluded hashes they hold |
| VerCode.ExclusionSemantics | dosocs2/util.py:176-178 | `None` exclusions behave as the empty set; excluding E equals removing E's hashes first and excluding nothing |
| VerCode.AllExcludedHashesEmpty | dosocs2/util.py:179-180 | an empty input, or one whose hashes are all excluded, yields SHA-1 of the empty string, not an error |
| VerCode.BlobLength | dosocs2/util.py:179 | the hashed blob is as long as all kept hashes together: nothing is added or dropped |
| VerCode.AddedHashExtendsBlob | dosocs2/util.py:178-179 | one more non-excluded hash lengthens the blob by exactly that hash |
| VerCode.DuplicatesNotCollapsed | dosocs2/util.py:178-179 | a repeated non-empty hash is not collapsed: the blob of [h, h] differs from the blob of [h] |
| Strs.Sort | dosocs2/util.py:179 | `sorted` returns a sorted permutation of its input (same multiset) |
| Strs.SortPermutation | dosocs2/util.py:179 | two permutations of one multiset sort to the same sequence |
| Paths.PathJoinSeparator | dosocs2/util.py:114 | an absolute second part replaces the first; a relative one is appended with a `/` added exactly when the first part is non-empty and does not end in `/` |
| Paths.NormpathIdempotent | dosocs2/util.py:104-105 | normalising a normalised path changes nothing |
| Paths.AbspathNormal | dosocs2/util.py:104-105 | with an absolute working directory, `abspath` gives an absolute path with no `.`, `..` or empty component, and is idempotent |
| Paths.Lcp | dosocs2/util.py:107 | the common prefix is a prefix of both strings and cannot be extended |
| Paths.CommonPrefixIsFirstIff | dosocs2/util.py:107-109 | the common prefix of a and b equals a exactly when b starts with a |
| Paths.AbsToRelBelow | dosocs2/util.py:214-215 | for an absolute, normalised start directory and an absolute, normalised path strictly below it, `abs_to_rel` is `./` followed by the remaining components joined with `/` |
| Paths.SplitExt | dosocs2/util.py:136-138 | `splitext` splits the path into root and extension; the extension starts with its only dot and holds no separator, and leading dots of the last component never start one |
| Paths.Basename | dosocs2/util.py:144 | the basename holds no separator and is the whole path or the part after its last `/` |
| Fingerprint.FilesOf | dosocs2/util.py:192-197 | the kept listing entries are exactly those naming regular files, without repeats when the listing has none |
| Fingerprint.Distinct | dosocs2/util.py:193-197 | the dictionary's keys in insertion order: no repeats, the same elements |
| Paths.AbsToRelFailsOnlyOnEmpty | dosocs2/util.py:214-215 | `abs_to_rel` raises exactly when the path is empty (`relpath`'s "no path specified"); every other path, relative or absolute, converts |
| Fingerprint.RelPaths | dosocs2/util.py:198-203 | each listed path is converted by `abs_to_rel`, in order; an empty path is the only one it can fail on, and `os.path.isfile` never lets one through |
| Fingerprint.GetDirHashes | dosocs2/util.py:182-211 | the call never raises; the map's keys are exactly the walked paths that `os.path.isfile` accepts, each mapped to its content's SHA-256 |
| Fingerprint.WalkOrderIrrelevant | dosocs2/util.py:192 | the whole triple does not depend on the order in which the walk reports paths |
| Fingerprint.VerCodeOfHashValues | dosocs2/util.py:208 | the first component is `gen_ver_code` of the map's values with the exclusions, in any enumeration of its keys |
| Fingerprint.HashMapIsEveryFile | dosocs2/util.py:166-197 | for a walk of a tree below the root, every regular file is a key mapped to its SHA-256, excluded or not, and nothing else is a key |
| Fingerprint.DirCodeOfIncludedFiles | dosocs2/util.py:198-211 | the third component is `gen_ver_code` without exclusions of the SHA-256 of `./` plus the relative path of every regular file whose hash is not excluded |
| Extract.ArchiveKind | dosocs2/util.py:85-91 | a path that cannot be opened raises, whatever it holds; otherwise tar is reported whenever the file is tar, zip only when it is zip and not tar, and nothing when it is neither |
| Extract.IsWithinDirectoryIsStringPrefix | dosocs2/util.py:102-109 | the code's guard accepts exactly the targets whose absolute path string starts with the directory's |
| Extract.CorrectedImpliesAsWritten | dosocs2/util.py:102-109 | whatever the component-wise guard accepts, the code's guard accepts as well |
| Extract.StrictMeansBelow | dosocs2/util.py:102-109 | the component-wise guard accepts exactly the targets whose normalised path is the directory's followed by zero or more components |
| Extract.SafeExtract | dosocs2/util.py:111-118 | when all members pass, each member is checked in order and then `extractall` runs; otherwise checking stops at the first failure and nothing is extracted |
| Extract.TempExtract | dosocs2/util.py:94-131 | without a directory the `finally` clause fails on the unbound name and nothing else happens; with one, it is made first and removed last and never in between |
| Extract.TarEventOrder | dosocs2/util.py:97-122 | in a tar archive's trace no member is checked after `extractall` or the yield, `extractall` never follows the yield, and the yield comes right after `extractall` |
| Extract.TarChecksBeforeExtract | dosocs2/util.py:111-121 | for a tar archive `extractall` runs if and only if every member passes, and only after every member was checked |
| Extract.TarRejectionStops | dosocs2/util.py:115-116 | a rejected tar member means no extraction, no yield, and a path-traversal error unless cleanup fails |
| Extract.ZipUnchecked | dosocs2/util.py:123-127 | a zip archive is extracted and yielded with no check of its member names |
| Extract.NonArchive | dosocs2/util.py:128-131 | a non-archive still gets a temporary directory, which is removed; the result is the TypeError |
| Extract.UnopenablePath | dosocs2/util.py:85-131 | a path that cannot be opened still gets a temporary directory, which is removed; nothing is extracted or yielded, and the `OSError` reaches the caller instead of the `TypeError` unless the cleanup raises |
| Extract.CleanupFailureMasks | dosocs2/util.py:130-131 | once the directory exists, a failing removal replaces every other outcome |
| Extract.SucceedsIff | dosocs2/util.py:94-131 | the block completes normally exactly when a directory was made, the file is an archive whose tar members all pass, and neither the body nor the cleanup raise; it then received the directory and the names |
| Extract.TarYieldsOnlyIfAllPass | dosocs2/util.py:121-122 | a tar archive is yielded only when every member passed the guard |
| Extract.CorrectedYieldsOnlyContained | dosocs2/util.py:102-122 | with the component-wise guard, every member name of a yielded tar archive normalises to the directory's components followed by zero or more further components |
| Extract.SiblingAccepted | dosocs2/util.py:102-116 | member `../abc/x` under `/t/ab` resolves to `/t/abc/x`, outside the directory, yet the code's guard accepts it and the corrected one rejects it |
| Extract.SiblingExtracted | dosocs2/util.py:111-121 | an archive holding that member is extracted under the code's guard, but not under the corrected one |
| Names.BoolRoundTrip | dosocs2/util.py:35-41 | `str(b)` parses back to b |
| Names.BoolAccepts | dosocs2/util.py:35-41 | a string parses exactly when it lower-cases to `true` or `false`, and the value says which |
| Names.BoolCaseInsensitive | dosocs2/util.py:35-41 | strings with the same lower-case form parse alike |
| Names.BoolParsePrint | dosocs2/util.py:35-41 | every accepted string is, up to case, the text of the flag it parses to |
| Names.SpdxFiletype | dosocs2/util.py:44-75 | SOURCE iff the source test holds; BINARY iff not source and the binary test holds; ARCHIVE iff neither but `archive` occurs; OTHER otherwise |
| Names.SourceIsStable | dosocs2/util.py:44-53 | a description that reads as source stays source whatever text surrounds it |
| Names.ArchiveNeverOther | dosocs2/util.py:66-75 | a description mentioning `archive` is never classified as OTHER |
| Names.ArArchiveIsBinary | dosocs2/util.py:56-75 | a description with no source marker followed by ` ar archive` is `BINARY`, not `ARCHIVE`, although it mentions an archive: the binary test comes first and the suffix completes no source marker |
| Names.PackageFriendlyName | dosocs2/util.py:134-139 | the friendly name is a prefix of the file name, and a name with no dot is unchanged |
| Names.FriendlyNameStripsOne | dosocs2/util.py:134-139 | `base.ext` becomes `base` for any `base` with no `/`, some non-dot character and no `.tar` ending, so `pkg-1.0.zip` becomes `pkg-1.0` |
| Names.FriendlyNameStripsTar | dosocs2/util.py:134-139 | `base.tar.ext` (such as `.tar.gz`) becomes `base` for any `base` with no `/` and some non-dot character, so `pkg-1.0.tar.gz` becomes `pkg-1.0` |
| Names.Sanitize | dosocs2/util.py:145 | one character out per character in: letters and digits are kept, everything else becomes `_` |
| Names.FileNameForId | dosocs2/util.py:142-145 | at most 20 characters, each a letter, digit or `_` |
| Names.FileNameForIdContents | dosocs2/util.py:142-145 | the result is the basename cut to 20 characters, letters and digits kept in place and all else replaced by `_` |
| Names.FileNameForIdIdempotent | dosocs2/util.py:142-145 | applying it to its own result changes nothing |
| Names.FileNameForIdIgnoresDirectory | dosocs2/util.py:143 | the directory part of the path makes no difference |
| Names.HashPart | dosocs2/util.py:151-154 | at most four characters: a prefix of the hash when one is given, characters 24-28 of the UUID otherwise |
| Names.GenIdString | dosocs2/util.py:148-158 | the identifier starts with `SPDXRef-`, the prefix and `-` |
| Names.GenIdStringFields | dosocs2/util.py:148-158 | splitting the identifier on `-` gives back `SPDXRef`, the prefix, the name part, the hash part and the UUID's first eight characters |
| Names.GenIdStringDistinct | dosocs2/util.py:148-158 | for any prefix, file name and hash (given or not), identifiers drawn with UUIDs whose first eight characters differ are different |
| Names.GenIdEndsWithUuidHead | dosocs2/util.py:148-158 | every identifier ends with the first eight characters of its UUID |
| Names.EmptyFileNameIsMissing | dosocs2/util.py:156 | an empty file name falls back to the UUID exactly as a missing one does |
| Names.HashPartUsesFourChars | dosocs2/util.py:154 | only the first four characters of the hash enter the identifier |
| Names.FriendlyNamespaceSuffix | dosocs2/util.py:161-163 | the suffix starts with `/`, ends with `-` and the UUID, and is two characters longer than name and UUID together |
| Names.NamespaceSuffixRecoversName | dosocs2/util.py:161-163 | the document name is recovered by dropping the leading `/` and the trailing `-` and UUID |

## Left out

- SHA-1 and SHA-256 (dosocs2/util.py:78-82, 180, 205) are uninterpreted parameters. UTF-8 encoding of the text before hashing is folded into the `sha256Text` parameter.
- Reading files, `os.walk` and `os.path.isfile` are replaced by a finite tree and a walk sequence. `os.walk`'s order is left free, and the result is proved not to depend on it.
- Fingerprint.IsFile: resolves the path lexically, as `normpath` does, and then looks it up; it rejects the empty path and a path ending in `/`, `.` or `..`, as `stat` does, but a `..` after a component that is a file or missing (`a/../f`) is accepted, where `stat` fails. Walked paths never contain `..`.
- Read errors while hashing are not modelled: the tree is read atomically.
- The files of a walk are plain component lists. Symbolic links and non-regular files other than directories are not modelled.
- The `tarfile`/`zipfile` parsers, `extractall`, `mkdtemp` and `rmtree` are not modelled. Each becomes an input of `Extract.Env` or `Extract.ArchiveFile`, or an event in the trace.
- The zip library's own sanitising of member names is outside the model.
- `magic.from_file` (dosocs2/util.py:68) is replaced by its output string, and `uuid.uuid4` (dosocs2/util.py:150, 163) by the text it returns. Uniqueness of identifiers therefore rests on the UUID.
- The libmagic description is bytes in the source and modelled as a string of characters, one per byte.
- The `tempdir` context manager (dosocs2/util.py:217-225) is not part of this model; it is not used by the modelled functions.
- src/DoSPDX.py is not part of this model. It is command-line and database glue.
- Names.Lower: folds ASCII letters only, where Python's `str.lower` folds all of Unicode. No non-ASCII character lower-cases to a letter of `true` or `false`, so `BoolFromStr` is exact.
- Fingerprint.HashMapIsEveryFile: stated for an absolute, normalised root (such as `/tmp/x`, not `pkg` or `/tmp/x/`) whose walk lists each path below it once as a normalised absolute string, as `os.walk` does on a tree without links; for other roots only `Fingerprint.GetDirHashes`'s own contract applies.
- Fingerprint.DirCodeOfIncludedFiles: stated for the same absolute, normalised roots and walks as above; relative or unnormalised roots are not covered.
- Extract.TempExtract: the caller's block inside the `with` statement is reduced to whether it raises.
- Extract.TempExtract: an error inside `tarfile.open` or `extractall` is not modelled, nor is the `BadZipFile` that `zipfile.ZipFile` (dosocs2/util.py:124) can raise for a file whose end record satisfied `zipfile.is_zipfile` but whose central directory is corrupt. Only the failure to open the path at all is modelled, as `Extract.ArchiveFile`'s `opens`.
- Extract.CorrectedYieldsOnlyContained: the guarantee is about member names only. Link members and `tarfile`'s own extraction filters are not modelled, so a symbolic-link member `l -> /etc` followed by a member `l/passwd` passes the component-wise check while `extractall` writes outside the directory.

## Findings

| source | as written | input that shows it | evidently intended | confidence | as-written member | corrected member |
|---|---|---|---|---|---|---|
| dosocs2/util.py:102-109 | `is_within_directory` accepts a target when the directory's absolute path is a character-wise prefix of the target's | archive member `../abc/x` extracted into `/t/ab`: it resolves to `/t/abc/x`, outside `/t/ab`, and passes the check, so `extractall` runs | accept only targets whose path components extend the directory's components | not executed | Extract.SiblingAccepted | Extract.CorrectedYieldsOnlyContained |

The code's guard is `Extract.IsWithinDirectory`, and `Extract.SiblingExtracted`
shows the archive being extracted under it. The corrected guard is
`Extract.IsWithinDirectoryStrict`. `Extract.StrictMeansBelow` states what it
accepts, and `Extract.CorrectedImpliesAsWritten` shows that it only ever
rejects more than the code's guard. Both guards test member names only; link
members can still lead `extractall` outside the directory (see "## Left out").

=== FILE: extract.dfy ===
/**
  Archive detection and temporary extraction: `archive_type` and
  `tempextract` with its path-traversal guard `is_within_directory` /
  `safe_extract` (dosocs2/util.py:85-131).

  What the archive libraries and the file system would report is passed in:
  whether the file opens and parses as tar and as zip, the member names in archive
  order, the directory `mkdtemp` returns (or that it failed), the working
  directory, and whether the caller's block or the cleanup raise. The model
  produces the sequence of effects `tempextract` performs and how it ends.
 */
module Extract {
  import opened Results
  import opened Strs
  import opened Paths

  /**
    What the file system and the archive libraries report for a file: whether
    it can be opened for reading at all, whether `tarfile.is_tarfile` and
    `zipfile.is_zipfile` accept it, and the member names in archive order.
   */
  datatype ArchiveFile = ArchiveFile(opens: bool, isTar: bool, isZip: bool, names: seq<string>)

  datatype ArchiveType = Tar | Zip

  /**
    `archive_type(path)`: tar is tried before zip; anything else is no archive.
    `tarfile.is_tarfile` turns only tar format errors into `False`: the
    `OSError` of a missing, unreadable or directory path propagates, so such a
    path raises before zip is tried.
   */
  function ArchiveKind(a: ArchiveFile): (r: Result<Option<ArchiveType>, Failure>)
    ensures r.Err? <==> !a.opens
    ensures r.Err? ==> r.error == OpenFailed
    ensures r == Ok(Some(Tar)) <==> a.opens && a.isTar
    ensures r == Ok(Some(Zip)) <==> a.opens && !a.isTar && a.isZip
    ensures r == Ok(None) <==> a.opens && !a.isTar && !a.isZip
  {
    if !a.opens then Err(OpenFailed)
    else if a.isTar then Ok(Some(Tar))
    else if a.isZip then Ok(Some(Zip))
    else Ok(None)
  }

  // ---------------------------------------------------------------------------
  // The guard

  /**
    `is_within_directory(directory, target)` as the code has it: both paths
    made absolute, and the directory must be their character-wise common prefix.
   */
  predicate IsWithinDirectory(cwd: string, directory: string, target: string)
  {
    var absDirectory := Abspath(cwd, directory);
    CommonPrefix(absDirectory, Abspath(cwd, target)) == absDirectory
  }

  /** The check the guard evidently intends: the target's components extend the directory's. */
  predicate IsWithinDirectoryStrict(cwd: string, directory: string, target: string)
  {
    var d := AbsNormalize(cwd, directory);
    var t := AbsNormalize(cwd, target);
    d.slashes == t.slashes && |d.comps| <= |t.comps| && t.comps[..|d.comps|] == d.comps
  }

  /** A guard on (directory, member path), as `safe_extract` calls it. */
  type Within = (string, string) -> bool

  /** The guard the code installs. */
  function CodeGuard(cwd: string): Within
  {
    (directory, target) => IsWithinDirectory(cwd, directory, target)
  }

  /** The corrected guard. */
  function CorrectedGuard(cwd: string): Within
  {
    (directory, target) => IsWithinDirectoryStrict(cwd, directory, target)
  }

  /**
    The guard in the code is a plain string-prefix test: it accepts exactly the
    targets whose absolute path starts with the directory's absolute path.
   */
  lemma IsWithinDirectoryIsStringPrefix(cwd: string, directory: string, target: string)
    ensures IsWithinDirectory(cwd, directory, target) <==> StartsWith(Abspath(cwd, target), Abspath(cwd, directory))
  {
    CommonPrefixIsFirstIff(Abspath(cwd, directory), Abspath(cwd, target));
  }

  lemma {:induction false} JoinPrefix(a: seq<string>, r: seq<string>, sep: char)
    requires |a| > 0
    ensures StartsWith(Join(a + r, sep), Join(a, sep))
    ensures |r| > 0 ==> Join(a + r, sep) == Join(a, sep) + [sep] + Join(r, sep)
    decreases |a|
  {
    if |r| == 0 {
      assert a + r == a;
    } else if |a| == 1 {
      assert (a + r)[1..] == r;
    } else {
      assert (a + r)[1..] == a[1..] + r;
      JoinPrefix(a[1..], r, sep);
    }
  }

  /** A normalised absolute path renders with the rendering of any of its ancestors as a prefix. */
  lemma RenderExtends(s: nat, a: seq<string>, r: seq<string>)
    requires s > 0
    ensures StartsWith(Render(NormPath(s, a + r)), Render(NormPath(s, a)))
  {
    var slashes := Rep(s, '/');
    RenderRooted(s, a + r);
    RenderRooted(s, a);
    if |a| > 0 {
      JoinPrefix(a, r, '/');
      StartsWithBothAfter(slashes, Join(a + r, '/'), Join(a, '/'));
    } else {
      assert a + r == r;
      assert slashes + Join(a, '/') == slashes;
      StartsWithBothAfter(slashes, Join(r, '/'), "");
    }
  }

  lemma RenderRooted(s: nat, c: seq<string>)
    requires s > 0
    ensures Render(NormPath(s, c)) == Rep(s, '/') + Join(c, '/')
  {
    assert |Rep(s, '/') + Join(c, '/')| >= s;
  }

  lemma StartsWithBothAfter(h: string, x: string, p: string)
    requires StartsWith(x, p)
    ensures StartsWith(h + x, h + p)
  {
    assert (h + x)[..|h| + |p|] == h + x[..|p|];
  }

  /** The corrected guard only ever rejects more: whatever it accepts, the code's guard accepts too. */
  lemma CorrectedImpliesAsWritten(cwd: string, directory: string, target: string)
    requires IsAbs(cwd)
    ensures IsWithinDirectoryStrict(cwd, directory, target) ==> IsWithinDirectory(cwd, directory, target)
  {
    var d := AbsNormalize(cwd, directory);
    var t := AbsNormalize(cwd, target);
    AbspathNormal(cwd, directory);
    if IsWithinDirectoryStrict(cwd, directory, target) {
      assert t.comps == d.comps + t.comps[|d.comps|..];
      RenderExtends(d.slashes, d.comps, t.comps[|d.comps|..]);
      IsWithinDirectoryIsStringPrefix(cwd, directory, target);
    }
  }

  // ---------------------------------------------------------------------------
  // The effects of tempextract

  /** One effect of `tempextract`. */
  datatype Event =
    | MakeTemp(dir: string)
    | Check(name: string, passed: bool)
    | ExtractAll
    | Yield(dir: string, names: seq<string>)
    | RemoveTree(dir: string)

  /** How `tempextract` ends, as the caller sees it. */
  datatype Failure =
    | UnboundTempDir        // `mkdtemp` raised, and the `finally` clause then names an unbound variable
    | OpenFailed            // the `OSError` of a path `tarfile.is_tarfile` cannot open
    | NotAnArchive          // the `TypeError` for a file that is neither tar nor zip
    | PathTraversal         // `safe_extract` rejected a member
    | BodyRaised            // the caller's block raised
    | CleanupFailed         // `rmtree` raised, replacing whatever was propagating

  /** What the environment does: `mkdtemp`'s result, the working directory, and which later steps raise. */
  datatype Env = Env(mkdtemp: Option<string>, cwd: string, bodyRaises: bool, rmtreeRaises: bool)

  datatype Yielded = Yielded(dir: string, names: seq<string>)

  datatype Outcome = Outcome(trace: seq<Event>, result: Result<Yielded, Failure>)

  /** `os.path.join(path, member.name)`: where a member is written. */
  function MemberPath(root: string, name: string): string
  {
    PathJoin(root, name)
  }

  /** Every member passes the guard. */
  predicate AllPass(within: Within, root: string, names: seq<string>)
  {
    forall k :: 0 <= k < |names| ==> within(root, MemberPath(root, names[k]))
  }

  /**
    `safe_extract(tf, path=root)`: check the members in order, raising at the
    first that fails; `extractall` runs only once all have passed.
   */
  function SafeExtract(within: Within, root: string, names: seq<string>): (r: (seq<Event>, bool))
    ensures r.1 <==> AllPass(within, root, names)
    ensures r.1 ==> (|r.0| == |names| + 1 && r.0[|names|] == ExtractAll
      && forall k :: 0 <= k < |names| ==> r.0[k] == Check(names[k], true))
    ensures !r.1 ==> (0 < |r.0| <= |names| && ExtractAll !in r.0
      && r.0[|r.0| - 1] == Check(names[|r.0| - 1], false)
      && !within(root, MemberPath(root, names[|r.0| - 1]))
      && forall k :: 0 <= k < |r.0| - 1 ==> r.0[k] == Check(names[k], true) && within(root, MemberPath(root, names[k])))
    ensures forall e :: e in r.0 ==> e.Check? || e == ExtractAll
    decreases |names|
  {
    if |names| == 0 then ([ExtractAll], true)
    else if !within(root, MemberPath(root, names[0])) then ([Check(names[0], false)], false)
    else
      var rest := SafeExtract(within, root, names[1..]);
      assert forall k :: 0 < k < |names| ==> names[1..][k - 1] == names[k];
      ([Check(names[0], true)] + rest.0, rest.1)
  }

  /** The effects between creating and removing the directory, and the failure raised before cleanup. */
  function Body(env: Env, dir: string, a: ArchiveFile, within: Within): (r: (seq<Event>, Option<Failure>))
    ensures forall e :: e in r.0 ==> !e.MakeTemp? && !e.RemoveTree?
  {
    match ArchiveKind(a)
    case Err(e) => ([], Some(e))
    case Ok(None) => ([], Some(NotAnArchive))
    case Ok(Some(Tar)) =>
      var checked := SafeExtract(within, dir, a.names);
      if !checked.1 then (checked.0, Some(PathTraversal))
      else (checked.0 + [Yield(dir, a.names)], if env.bodyRaises then Some(BodyRaised) else None)
    case Ok(Some(Zip)) =>
      ([ExtractAll, Yield(dir, a.names)], if env.bodyRaises then Some(BodyRaised) else None)
  }

  /**
    `tempextract(path)`: make a temporary directory, extract into it (checking
    tar members with `within` first), yield it with the member names, and
    remove it in the `finally` clause whatever happened. The code installs
    `CodeGuard(env.cwd)`.
   */
  function TempExtract(env: Env, a: ArchiveFile, within: Within): (o: Outcome)
    ensures env.mkdtemp.None? ==> o == Outcome([], Err(UnboundTempDir))
    ensures env.mkdtemp.Some? ==> (|o.trace| >= 2
      && o.trace[0] == MakeTemp(env.mkdtemp.value)
      && o.trace[|o.trace| - 1] == RemoveTree(env.mkdtemp.value)
      && forall i :: 0 < i < |o.trace| - 1 ==> !o.trace[i].MakeTemp? && !o.trace[i].RemoveTree?)
  {
    match env.mkdtemp
    case None => Outcome([], Err(UnboundTempDir))
    case Some(dir) =>
      var body := Body(env, dir, a, within);
      var result :=
        if env.rmtreeRaises then Err(CleanupFailed)
        else if body.1.Some? then Err(body.1.value)
        else Ok(Yielded(dir, a.names));
      var trace := [MakeTemp(dir)] + body.0 + [RemoveTree(dir)];
      assert forall i :: 0 < i < |trace| - 1 ==> trace[i] == body.0[i - 1];
      Outcome(trace, result)
  }

  // ---------------------------------------------------------------------------
  // Properties of tempextract

  /** The trace of a tar archive once the directory exists, in terms of the checks. */
  lemma TarTrace(env: Env, a: ArchiveFile, within: Within)
    requires env.mkdtemp.Some? && a.opens && a.isTar
    ensures var dir := env.mkdtemp.value;
      var checked := SafeExtract(within, dir, a.names);
      TempExtract(env, a, within).trace ==
        [MakeTemp(dir)] + checked.0 + (if checked.1 then [Yield(dir, a.names)] else []) + [RemoveTree(dir)]
  {
  }

  /**
    In a tar archive's trace no member is checked after `extractall` or after
    the yield, `extractall` never follows the yield, and a yield is always
    preceded by `extractall`.
   */
  lemma TarEventOrder(env: Env, a: ArchiveFile, within: Within)
    requires env.mkdtemp.Some? && a.opens && a.isTar
    ensures var t := TempExtract(env, a, within).trace;
      forall i, j :: 0 <= i < j < |t| && t[j].Check? ==> !t[i].ExtractAll? && !t[i].Yield?
    ensures var t := TempExtract(env, a, within).trace;
      forall i, j :: 0 <= i < j < |t| && t[j].ExtractAll? ==> !t[i].Yield?
    ensures var t := TempExtract(env, a, within).trace;
      forall j :: 0 <= j < |t| && t[j].Yield? ==> 0 < j && t[j - 1].ExtractAll?
  {
    TarTrace(env, a, within);
    var dir := env.mkdtemp.value;
    var c := SafeExtract(within, dir, a.names);
    var t := TempExtract(env, a, within).trace;
    if c.1 {
      var cs := c.0[..|a.names|];
      assert c.0 == cs + [ExtractAll];
      assert t == [MakeTemp(dir)] + cs + [ExtractAll, Yield(dir, a.names)] + [RemoveTree(dir)];
      ShapeOrder(t, dir, cs, [ExtractAll, Yield(dir, a.names)], a.names);
    } else {
      assert t == [MakeTemp(dir)] + c.0 + [] + [RemoveTree(dir)];
      ShapeOrder(t, dir, c.0, [], a.names);
    }
  }

  /** The event order of a trace made of the directory, checks, possibly extract-and-yield, and removal. */
  lemma ShapeOrder(t: seq<Event>, dir: string, cs: seq<Event>, x: seq<Event>, names: seq<string>)
    requires forall k :: 0 <= k < |cs| ==> cs[k].Check?
    requires x == [] || x == [ExtractAll, Yield(dir, names)]
    requires t == [MakeTemp(dir)] + cs + x + [RemoveTree(dir)]
    ensures forall i, j :: 0 <= i < j < |t| && t[j].Check? ==> !t[i].ExtractAll? && !t[i].Yield?
    ensures forall i, j :: 0 <= i < j < |t| && t[j].ExtractAll? ==> !t[i].Yield?
    ensures forall j :: 0 <= j < |t| && t[j].Yield? ==> 0 < j && t[j - 1].ExtractAll?
  {
    var n := |cs|;
    assert forall k :: 1 <= k <= n ==> t[k] == cs[k - 1];
    assert forall k :: n < k < |t| ==> !t[k].Check?;
    assert forall k :: 0 <= k <= n ==> !t[k].ExtractAll? && !t[k].Yield?;
    if x != [] {
      assert t[n + 1] == ExtractAll && t[n + 2] == Yield(dir, names);
    }
  }

  /**
    For a tar archive every member is checked, in order, before `extractall`,
    and `extractall` runs if and only if every member passes.
   */
  lemma TarChecksBeforeExtract(env: Env, a: ArchiveFile, within: Within)
    requires env.mkdtemp.Some? && a.opens && a.isTar
    ensures var t := TempExtract(env, a, within).trace;
      ExtractAll in t <==> AllPass(within, env.mkdtemp.value, a.names)
    ensures var t := TempExtract(env, a, within).trace;
      AllPass(within, env.mkdtemp.value, a.names) ==>
        (t[|a.names| + 1] == ExtractAll && forall k :: 0 <= k < |a.names| ==> t[k + 1] == Check(a.names[k], true))
  {
    var dir := env.mkdtemp.value;
    var checked := SafeExtract(within, dir, a.names);
    TarTrace(env, a, within);
    var t := TempExtract(env, a, within).trace;
    if checked.1 {
      assert t[|a.names| + 1] == checked.0[|a.names|];
      assert forall k :: 0 <= k < |a.names| ==> t[k + 1] == checked.0[k];
    } else {
      assert t == [MakeTemp(dir)] + checked.0 + [RemoveTree(dir)];
    }
  }

  /**
    A tar archive with a rejected member never extracts and never yields, and
    ends in `PathTraversal` unless the cleanup itself raises.
   */
  lemma TarRejectionStops(env: Env, a: ArchiveFile, within: Within)
    requires env.mkdtemp.Some? && a.opens && a.isTar
    requires !AllPass(within, env.mkdtemp.value, a.names)
    ensures TempExtract(env, a, within).result == if env.rmtreeRaises then Err(CleanupFailed) else Err(PathTraversal)
    ensures forall e :: e in TempExtract(env, a, within).trace ==> !e.Yield? && !e.ExtractAll?
  {
    TarTrace(env, a, within);
  }

  /** The zip branch checks nothing: it extracts and yields whatever the member names are. */
  lemma ZipUnchecked(env: Env, a: ArchiveFile, within: Within)
    requires env.mkdtemp.Some? && a.opens && !a.isTar && a.isZip
    ensures var dir := env.mkdtemp.value;
      TempExtract(env, a, within).trace == [MakeTemp(dir), ExtractAll, Yield(dir, a.names), RemoveTree(dir)]
  {
  }

  /** A file that is neither tar nor zip still gets a temporary directory, which is removed again. */
  lemma NonArchive(env: Env, a: ArchiveFile, within: Within)
    requires env.mkdtemp.Some? && a.opens && !a.isTar && !a.isZip
    ensures var dir := env.mkdtemp.value;
      TempExtract(env, a, within) == Outcome([MakeTemp(dir), RemoveTree(dir)],
        if env.rmtreeRaises then Err(CleanupFailed) else Err(NotAnArchive))
  {
  }

  /**
    A path that cannot be opened still gets a temporary directory, which is
    removed again; nothing is extracted or yielded, and the caller sees the
    `OSError` from `tarfile.is_tarfile`, not the `TypeError` of a non-archive,
    whatever the file would parse as.
   */
  lemma UnopenablePath(env: Env, a: ArchiveFile, within: Within)
    requires env.mkdtemp.Some? && !a.opens
    ensures var dir := env.mkdtemp.value;
      TempExtract(env, a, within) == Outcome([MakeTemp(dir), RemoveTree(dir)],
        if env.rmtreeRaises then Err(CleanupFailed) else Err(OpenFailed))
  {
  }

  /** A failing cleanup replaces every other outcome once the directory exists. */
  lemma CleanupFailureMasks(env: Env, a: ArchiveFile, within: Within)
    requires env.mkdtemp.Some? && env.rmtreeRaises
    ensures TempExtract(env, a, within).result == Err(CleanupFailed)
  {
  }

  /**
    The caller's block completes normally exactly when a directory was made, the
    file is an archive whose tar members (if tar) all pass, and neither the
    block nor the cleanup raise; then it received the directory and the names.
   */
  lemma SucceedsIff(env: Env, a: ArchiveFile, within: Within)
    ensures TempExtract(env, a, within).result.Ok? <==>
      && env.mkdtemp.Some?
      && a.opens && (a.isTar || a.isZip)
      && (a.isTar ==> AllPass(within, env.mkdtemp.value, a.names))
      && !env.bodyRaises && !env.rmtreeRaises
    ensures TempExtract(env, a, within).result.Ok? ==>
      (TempExtract(env, a, within).result.value == Yielded(env.mkdtemp.value, a.names)
      && Yield(env.mkdtemp.value, a.names) in TempExtract(env, a, within).trace)
  {
    if env.mkdtemp.Some? {
      var dir := env.mkdtemp.value;
      if a.opens && a.isTar {
        TarTrace(env, a, within);
        var checked := SafeExtract(within, dir, a.names);
        if checked.1 {
          assert TempExtract(env, a, within).trace[|checked.0| + 1] == Yield(dir, a.names);
        }
      } else if a.opens && a.isZip {
        ZipUnchecked(env, a, within);
      }
    }
  }

  /** The tar branch yields only when every member passed. */
  lemma TarYieldsOnlyIfAllPass(env: Env, a: ArchiveFile, within: Within)
    requires env.mkdtemp.Some? && a.opens && a.isTar
    requires Yield(env.mkdtemp.value, a.names) in TempExtract(env, a, within).trace
    ensures AllPass(within, env.mkdtemp.value, a.names)
  {
    var dir := env.mkdtemp.value;
    var checked := SafeExtract(within, dir, a.names);
    TarTrace(env, a, within);
    assert checked.1 || Yield(dir, a.names) !in [MakeTemp(dir)] + checked.0 + [RemoveTree(dir)];
  }

  /**
    With the corrected guard, whenever the tar branch yields, every member
    passed the component-wise containment test against the directory.
   */
  lemma CorrectedYieldsOnlyContained(env: Env, a: ArchiveFile)
    requires env.mkdtemp.Some? && a.opens && a.isTar
    requires Yield(env.mkdtemp.value, a.names) in TempExtract(env, a, CorrectedGuard(env.cwd)).trace
    ensures forall k :: 0 <= k < |a.names| ==>
      IsWithinDirectoryStrict(env.cwd, env.mkdtemp.value, MemberPath(env.mkdtemp.value, a.names[k]))
  {
    var dir := env.mkdtemp.value;
    var g := CorrectedGuard(env.cwd);
    TarYieldsOnlyIfAllPass(env, a, g);
    forall k | 0 <= k < |a.names|
      ensures IsWithinDirectoryStrict(env.cwd, dir, MemberPath(dir, a.names[k]))
    {
      assert g(dir, MemberPath(dir, a.names[k]));
    }
  }

  /**
    What the corrected test means: the member's absolute path has the
    directory's leading slashes and its components, followed by zero or more
    further components (the directory itself is accepted).
   */
  lemma StrictMeansBelow(cwd: string, directory: string, target: string)
    ensures IsWithinDirectoryStrict(cwd, directory, target) <==>
      exists rest :: AbsNormalize(cwd, target) == NormPath(AbsNormalize(cwd, directory).slashes, AbsNormalize(cwd, directory).comps + rest)
  {
    var d := AbsNormalize(cwd, directory);
    var t := AbsNormalize(cwd, target);
    if IsWithinDirectoryStrict(cwd, directory, target) {
      var rest := t.comps[|d.comps|..];
      assert t.comps == d.comps + rest;
      assert t == NormPath(d.slashes, d.comps + rest);
    }
    if exists rest :: t == NormPath(d.slashes, d.comps + rest) {
      var rest :| t == NormPath(d.slashes, d.comps + rest);
      assert t.comps[..|d.comps|] == d.comps;
    }
  }

  // ---------------------------------------------------------------------------
  // The guard accepts a sibling of the extraction directory

  lemma NormalizeAbsLiteral(p: string, parts: seq<string>, comps: seq<string>)
    requires |parts| >= 2 && parts[0] == "" && parts[1] != ""
    requires forall i :: 0 <= i < |parts| ==> '/' !in parts[i]
    requires p == Join(parts, '/')
    requires NormComps(parts, true, []) == comps
    ensures Normalize(p) == NormPath(1, comps)
  {
    SplitJoin(parts, '/');
    OneLeadingSlash(parts);
  }

  /** A join whose first part is empty and whose second is a non-empty part without `/` starts with exactly one `/`. */
  lemma OneLeadingSlash(parts: seq<string>)
    requires |parts| >= 2 && parts[0] == "" && parts[1] != "" && '/' !in parts[1]
    ensures InitialSlashes(Join(parts, '/')) == 1
  {
    var p := Join(parts, '/');
    var tail := Join(parts[1..], '/');
    assert p == parts[0] + ['/'] + tail;
    assert p == ['/'] + tail;
    JoinStartsWith(parts[1..], '/');
    assert tail[0] == parts[1][0];
    assert parts[1][0] in parts[1];
    assert p[0] == '/' && p[1] != '/';
    assert p[..1] == "/" && p[..2] != "//";
  }

  lemma TargetNormalizes(target: string)
    requires target == "/t/ab/../abc/x"
    ensures Normalize(target) == NormPath(1, ["t", "abc", "x"])
  {
    var tparts := ["", "t", "ab", "..", "abc", "x"];
    assert Join(tparts, '/') == target;
    assert NormComps(tparts, true, []) == ["t", "abc", "x"];
    NormalizeAbsLiteral(target, tparts, ["t", "abc", "x"]);
  }

  lemma RootNormalizes()
    ensures Normalize("/t/ab") == NormPath(1, ["t", "ab"])
  {
    var dparts := ["", "t", "ab"];
    assert Join(dparts, '/') == "/t/ab";
    assert NormComps(dparts, true, []) == ["t", "ab"];
    NormalizeAbsLiteral("/t/ab", dparts, ["t", "ab"]);
  }

  lemma SiblingMemberPath()
    ensures MemberPath("/t/ab", "../abc/x") == "/t/ab/../abc/x"
  {
    var name := "../abc/x";
    assert name[0] == '.';
    assert !StartsWith(name, "/") by {
      assert name[..1][0] == '.';
    }
  }

  /** An absolute path resolves, whatever the working directory, to its own normal form. */
  lemma ResolvesAbsolute(cwd: string, p: string, comps: seq<string>)
    requires IsAbs(p) && Normalize(p) == NormPath(1, comps)
    ensures AbsNormalize(cwd, p) == NormPath(1, comps)
    ensures Abspath(cwd, p) == AbsPathOf(comps)
  {
  }

  /** A path whose first character is `/` is absolute. */
  lemma LeadingSlashIsAbs(p: string)
    requires |p| > 0 && p[0] == '/'
    ensures IsAbs(p)
  {
    assert p[..1] == "/";
  }

  lemma SiblingRenders()
    ensures AbsPathOf(["t", "abc", "x"]) == "/t/abc/x"
  {
    assert Join(["t", "abc", "x"], '/') == "t/abc/x";
  }

  lemma RootRenders()
    ensures AbsPathOf(["t", "ab"]) == "/t/ab"
  {
    assert Join(["t", "ab"], '/') == "t/ab";
  }

  lemma SiblingResolves(target: string)
    requires target == "/t/ab/../abc/x"
    ensures AbsNormalize("/", target) == NormPath(1, ["t", "abc", "x"])
    ensures Abspath("/", target) == "/t/abc/x"
  {
    LeadingSlashIsAbs(target);
    TargetNormalizes(target);
    ResolvesAbsolute("/", target, ["t", "abc", "x"]);
    SiblingRenders();
  }

  lemma RootResolves(root: string)
    requires root == "/t/ab"
    ensures AbsNormalize("/", root) == NormPath(1, ["t", "ab"])
    ensures Abspath("/", root) == "/t/ab"
  {
    LeadingSlashIsAbs(root);
    RootNormalizes();
    ResolvesAbsolute("/", root, ["t", "ab"]);
    RootRenders();
  }

  lemma AsWrittenAcceptsSibling(root: string, target: string)
    requires root == "/t/ab" && target == "/t/ab/../abc/x"
    ensures IsWithinDirectory("/", root, target)
  {
    SiblingResolves(target);
    RootResolves(root);
    var ad := Abspath("/", root);
    var at := Abspath("/", target);
    assert StartsWith(at, ad) by {
      assert at[..5] == ad;
    }
    IsWithinDirectoryIsStringPrefix("/", root, target);
  }

  lemma CorrectedRejectsSibling(root: string, target: string)
    requires root == "/t/ab" && target == "/t/ab/../abc/x"
    ensures !IsWithinDirectoryStrict("/", root, target)
  {
    SiblingResolves(target);
    RootResolves(root);
    assert ["t", "abc", "x"][..2] != ["t", "ab"] by {
      assert ["t", "abc", "x"][..2][1] == "abc";
    }
  }

  /**
    A member `../abc/x` of an archive extracted into `/t/ab` resolves to
    `/t/abc/x`, outside the directory, yet the code's guard accepts it because
    `/t/ab` is a string prefix of `/t/abc/x`; the corrected guard rejects it.
   */
  lemma SiblingAccepted(root: string, name: string)
    requires root == "/t/ab" && name == "../abc/x"
    ensures Abspath("/", MemberPath(root, name)) == "/t/abc/x"
    ensures IsWithinDirectory("/", root, MemberPath(root, name))
    ensures !IsWithinDirectoryStrict("/", root, MemberPath(root, name))
  {
    SiblingMemberPath();
    var target := MemberPath(root, name);
    SiblingResolves(target);
    AsWrittenAcceptsSibling(root, target);
    CorrectedRejectsSibling(root, target);
  }

  /** The code extracts such an archive: the sibling member passes its guard and `extractall` runs. */
  lemma SiblingExtracted(env: Env)
    requires env.mkdtemp == Some("/t/ab") && env.cwd == "/"
    ensures ExtractAll in TempExtract(env, ArchiveFile(true, true, false, ["../abc/x"]), CodeGuard(env.cwd)).trace
    ensures ExtractAll !in TempExtract(env, ArchiveFile(true, true, false, ["../abc/x"]), CorrectedGuard(env.cwd)).trace
  {
    SiblingAccepted("/t/ab", "../abc/x");
    var a := ArchiveFile(true, true, false, ["../abc/x"]);
    TarChecksBeforeExtract(env, a, CodeGuard(env.cwd));
    TarChecksBeforeExtract(env, a, CorrectedGuard(env.cwd));
    assert CodeGuard(env.cwd)("/t/ab", MemberPath("/t/ab", a.names[0]));
    assert !CorrectedGuard(env.cwd)("/t/ab", MemberPath("/t/ab", a.names[0]));
  }
}

=== FILE: fingerprint.dfy ===
/**
  The directory fingerprint of `get_dir_hashes` (dosocs2/util.py:182-211),
  with `allpaths` (166-171), `sha256` (78-82) and `abs_to_rel` (214-215).

  The file system is a finite tree: a map from the components of an absolute
  path to a regular file (with its bytes) or a directory. `os.walk` is the
  parameter `walk`, the listing in whatever order the walk produced it; the
  three hash functions are uninterpreted parameters.
 */
module Fingerprint {
  import opened Results
  import opened Strs
  import opened Paths
  import opened VerCode

  newtype Byte = x: int | 0 <= x < 256

  /** An entry of the tree: a regular file with its contents, or a directory. */
  datatype Node = File(content: seq<Byte>) | Dir

  /** A directory tree, keyed by the components of each entry's absolute path. */
  type Tree = map<seq<string>, Node>

  /** SHA-1 of text, SHA-256 of file bytes, SHA-256 of the UTF-8 bytes of text. */
  datatype Hashers = Hashers(sha1: string -> string, sha256: seq<Byte> -> string, sha256Text: string -> string)

  /** The triple `get_dir_hashes` returns: `(ver_code, {filepath: sha256}, dir_code)`. */
  datatype DirHashes = DirHashes(verCode: string, hashes: map<string, string>, dirCode: string)

  /** Every key of the tree is a list of plain components. */
  predicate WellFormed(t: Tree)
  {
    forall c :: c in t ==> AllPlain(c)
  }

  /**
    `os.path.isfile(p)`: the path, made absolute and normalised, names a
    regular file, and its last component names an entry. `stat` fails on the
    empty path and on a path ending in `/`, `.` or `..`, which normalising
    alone would let through.
   */
  predicate IsFile(t: Tree, cwd: string, p: string)
  {
    var c := AbsNormalize(cwd, p).comps;
    Plain(Basename(p)) && c in t && t[c].File?
  }

  /** The empty path is never a file, so it is never handed to `abs_to_rel`. */
  lemma EmptyIsNoFile(t: Tree, cwd: string)
    ensures !IsFile(t, cwd, "")
  {
    assert Basename("") == "";
  }

  /** `sha256(filename)`: the SHA-256 of the file's contents. */
  function FileHash(t: Tree, hs: Hashers, cwd: string, p: string): string
    requires IsFile(t, cwd, p)
  {
    hs.sha256(t[AbsNormalize(cwd, p).comps].content)
  }

  /** `[f(x) for x in s]`. */
  function MapSeq<A, B>(f: A -> B, s: seq<A>): (r: seq<B>)
    ensures |r| == |s|
    ensures forall i :: 0 <= i < |s| ==> r[i] == f(s[i])
    decreases |s|
  {
    if |s| == 0 then [] else [f(s[0])] + MapSeq(f, s[1..])
  }

  /** `[m[k] for k in ks]`. */
  function Lookups(m: map<string, string>, ks: seq<string>): (r: seq<string>)
    requires forall k :: k in ks ==> k in m
    ensures |r| == |ks|
    ensures forall i :: 0 <= i < |ks| ==> r[i] == m[ks[i]]
    decreases |ks|
  {
    if |ks| == 0 then [] else [m[ks[0]]] + Lookups(m, ks[1..])
  }

  lemma NoDupTail<T>(s: seq<T>)
    requires |s| > 0 && NoDup(s)
    ensures NoDup(s[1..]) && s[0] !in s[1..]
  {
    forall k | 0 <= k < |s[1..]|
      ensures s[1..][k] != s[0]
    {
      assert s[1..][k] == s[k + 1];
    }
  }

  /** The regular files of a listing, in listing order. */
  function FilesOf(t: Tree, cwd: string, listing: seq<string>): (r: seq<string>)
    ensures forall p :: p in r <==> p in listing && IsFile(t, cwd, p)
    ensures NoDup(listing) ==> NoDup(r)
    decreases |listing|
  {
    if |listing| == 0 then []
    else
      var rest := FilesOf(t, cwd, listing[1..]);
      assert forall p :: p in listing <==> p == listing[0] || p in listing[1..];
      assert NoDup(listing) ==> NoDup(listing[1..]) && listing[0] !in listing[1..] by {
        if NoDup(listing) {
          NoDupTail(listing);
        }
      }
      if IsFile(t, cwd, listing[0]) then [listing[0]] + rest else rest
  }

  /** The files whose hash is not excluded (`hashes.get(abspath) not in excluded_hashes`). */
  function NotExcluded(hashes: map<string, string>, files: seq<string>, excluded: set<string>): (r: seq<string>)
    requires forall p :: p in files ==> p in hashes
    ensures forall p :: p in r <==> p in files && hashes[p] !in excluded
    ensures NoDup(files) ==> NoDup(r)
    decreases |files|
  {
    if |files| == 0 then []
    else
      var rest := NotExcluded(hashes, files[1..], excluded);
      assert forall p :: p in files <==> p == files[0] || p in files[1..];
      assert NoDup(files) ==> NoDup(files[1..]) && files[0] !in files[1..] by {
        if NoDup(files) {
          NoDupTail(files);
        }
      }
      if hashes[files[0]] !in excluded then [files[0]] + rest else rest
  }

  /** Each key once, in order of first occurrence: the key order of a `dict` built from the sequence. */
  function Distinct(s: seq<string>): (r: seq<string>)
    ensures NoDup(r)
    ensures forall p :: p in r <==> p in s
    decreases |s|
  {
    if |s| == 0 then []
    else
      var init := s[..|s| - 1];
      var last := s[|s| - 1];
      var d := Distinct(init);
      assert s == init + [last];
      assert forall p :: p in s <==> p in init || p == last;
      if last in init then d else d + [last]
  }

  /** `{p: sha256(p) for p in files}`. */
  function FileHashes(t: Tree, hs: Hashers, cwd: string, files: seq<string>): (r: map<string, string>)
    requires forall p :: p in files ==> IsFile(t, cwd, p)
    ensures forall p :: p in r <==> p in files
    ensures forall p :: p in r ==> r[p] == FileHash(t, hs, cwd, p)
  {
    map p | p in files :: FileHash(t, hs, cwd, p)
  }

  /** `abs_to_rel(path, p)` for each `p`, stopping at the first error. */
  function RelPaths(cwd: string, root: string, ps: seq<string>): (r: Result<seq<string>, PathError>)
    ensures r.Ok? ==> |r.value| == |ps|
    ensures r.Ok? ==> forall i :: 0 <= i < |ps| ==> AbsToRel(cwd, root, ps[i]) == Ok(r.value[i])
    ensures r.Err? ==> "" in ps
    decreases |ps|
  {
    if |ps| == 0 then Ok([])
    else
      AbsToRelFailsOnlyOnEmpty(cwd, root, ps[0]);
      match AbsToRel(cwd, root, ps[0])
      case Err(e) => Err(e)
      case Ok(rel) =>
        match RelPaths(cwd, root, ps[1..])
        case Err(e) => Err(e)
        case Ok(rest) => Ok([rel] + rest)
  }

  // ---------------------------------------------------------------------------
  // The stages of get_dir_hashes

  lemma SortElems(s: seq<string>)
    ensures forall p :: p in Sort(s) <==> p in s
  {
    forall p
      ensures p in Sort(s) <==> p in s
    {
      assert p in Sort(s) <==> p in multiset(Sort(s));
    }
  }

  /** `r` holds `r[i]` at least twice when it occurs again at `j`. */
  lemma TwoOccurrences<T>(r: seq<T>, i: nat, j: nat)
    requires i < j < |r|
    ensures r[i] == r[j] ==> multiset(r)[r[i]] >= 2
  {
    if r[i] == r[j] {
      assert r == r[..i] + [r[i]] + r[i + 1..j] + [r[j]] + r[j + 1..];
    }
  }

  /** A permutation of a repetition-free sequence is repetition-free. */
  lemma PermNoDup<T>(a: seq<T>, b: seq<T>)
    requires NoDup(a) && multiset(a) == multiset(b)
    ensures NoDup(b)
  {
    forall i, j | 0 <= i < j < |b|
      ensures b[i] != b[j]
    {
      NoDupCount(a, b[i]);
      TwoOccurrences(b, i, j);
    }
  }

  /** The regular files of the sorted listing. */
  function Files(t: Tree, cwd: string, walk: seq<string>): (r: seq<string>)
    ensures forall p :: p in r <==> p in walk && IsFile(t, cwd, p)
    ensures NoDup(walk) ==> NoDup(r)
  {
    SortElems(walk);
    assert NoDup(walk) ==> NoDup(Sort(walk)) by {
      if NoDup(walk) {
        PermNoDup(walk, Sort(walk));
      }
    }
    FilesOf(t, cwd, Sort(walk))
  }

  /** The dictionary `hashes`: every regular file of the listing, mapped to its hash. */
  function HashMap(t: Tree, hs: Hashers, cwd: string, walk: seq<string>): (r: map<string, string>)
    ensures forall p :: p in r <==> p in walk && IsFile(t, cwd, p)
    ensures forall p :: p in r ==> IsFile(t, cwd, p) && r[p] == FileHash(t, hs, cwd, p)
  {
    FileHashes(t, hs, cwd, Files(t, cwd, walk))
  }

  /** The files whose relative paths enter the second code. */
  function Included(t: Tree, hs: Hashers, cwd: string, walk: seq<string>, excl: set<string>): (r: seq<string>)
    ensures forall p :: p in r <==> p in walk && IsFile(t, cwd, p) && FileHash(t, hs, cwd, p) !in excl
    ensures NoDup(walk) ==> NoDup(r)
  {
    NotExcluded(HashMap(t, hs, cwd, walk), Files(t, cwd, walk), excl)
  }

  /**
    `get_dir_hashes(path, excluded_hashes)`: sort the listing, hash every
    regular file, compute the verification code over those hashes, and a
    second code over the SHA-256 of each `./`-relative path of a file whose
    hash is not excluded.
   */
  function GetDirHashes(t: Tree, hs: Hashers, cwd: string, root: string, walk: seq<string>, excluded: Option<set<string>>): (r: Result<DirHashes, PathError>)
    ensures r.Ok? ==> forall p :: p in r.value.hashes <==> p in walk && IsFile(t, cwd, p)
    ensures r.Ok? ==> forall p :: p in r.value.hashes ==> IsFile(t, cwd, p) && r.value.hashes[p] == FileHash(t, hs, cwd, p)
    ensures r.Ok?
  {
    var excl := Exclusions(excluded);
    IncludedHasNoEmpty(t, hs, cwd, walk, excl);
    var hashes := HashMap(t, hs, cwd, walk);
    match RelPaths(cwd, root, Included(t, hs, cwd, walk, excl))
    case Err(e) => Err(e)
    case Ok(rels) =>
      var values := Lookups(hashes, Distinct(Files(t, cwd, walk)));
      Ok(DirHashes(GenVerCode(hs.sha1, values, Some(excl)), hashes, GenVerCode(hs.sha1, MapSeq(hs.sha256Text, Sort(rels)), None)))
  }

  /** `os.path.isfile` rejects the empty path, so no included path is empty. */
  lemma IncludedHasNoEmpty(t: Tree, hs: Hashers, cwd: string, walk: seq<string>, excl: set<string>)
    ensures "" !in Included(t, hs, cwd, walk, excl)
  {
    EmptyIsNoFile(t, cwd);
  }

  /** What a successful call returns, stage by stage. */
  lemma GetDirHashesParts(t: Tree, hs: Hashers, cwd: string, root: string, walk: seq<string>, excluded: Option<set<string>>)
    ensures var r := GetDirHashes(t, hs, cwd, root, walk, excluded);
      var rr := RelPaths(cwd, root, Included(t, hs, cwd, walk, Exclusions(excluded)));
      r.Ok? <==> rr.Ok?
    ensures var r := GetDirHashes(t, hs, cwd, root, walk, excluded);
      var rr := RelPaths(cwd, root, Included(t, hs, cwd, walk, Exclusions(excluded)));
      var m := HashMap(t, hs, cwd, walk);
      r.Ok? ==> (r.value.hashes == m
        && r.value.verCode == GenVerCode(hs.sha1, Lookups(m, Distinct(Files(t, cwd, walk))), Some(Exclusions(excluded)))
        && r.value.dirCode == GenVerCode(hs.sha1, MapSeq(hs.sha256Text, Sort(rr.value)), None))
  {
  }

  // ---------------------------------------------------------------------------
  // Permutation facts used below

  lemma {:induction false} MapSeqAppend<A, B>(f: A -> B, a: seq<A>, b: seq<A>)
    ensures MapSeq(f, a + b) == MapSeq(f, a) + MapSeq(f, b)
    decreases |a|
  {
    if |a| > 0 {
      assert (a + b)[1..] == a[1..] + b;
      MapSeqAppend(f, a[1..], b);
    } else {
      assert a + b == b;
    }
  }

  lemma RemoveAt<T>(b: seq<T>, k: nat)
    requires k < |b|
    ensures multiset(b) == multiset(b[..k] + b[k + 1..]) + multiset{b[k]}
  {
    assert b == b[..k] + [b[k]] + b[k + 1..];
  }

  lemma {:induction false} MapSeqRemoveAt<A, B>(f: A -> B, b: seq<A>, k: nat)
    requires k < |b|
    ensures multiset(MapSeq(f, b)) == multiset(MapSeq(f, b[..k] + b[k + 1..])) + multiset{f(b[k])}
  {
    assert b == b[..k] + ([b[k]] + b[k + 1..]);
    MapSeqAppend(f, b[..k], [b[k]] + b[k + 1..]);
    MapSeqAppend(f, [b[k]], b[k + 1..]);
    MapSeqAppend(f, b[..k], b[k + 1..]);
  }

  /** Removing equal elements from two permutations leaves permutations. */
  lemma RemoveFromPerm<T>(a: seq<T>, b: seq<T>, k: nat)
    requires multiset(a) == multiset(b) && |a| > 0 && k < |b| && b[k] == a[0]
    ensures multiset(a[1..]) == multiset(b[..k] + b[k + 1..])
  {
    RemoveAt(a, 0);
    assert a[..0] + a[1..] == a[1..];
    RemoveAt(b, k);
    var b' := b[..k] + b[k + 1..];
    forall x
      ensures multiset(a[1..])[x] == multiset(b')[x]
    {
      assert multiset(a)[x] == multiset(a[1..])[x] + multiset{a[0]}[x];
      assert multiset(b)[x] == multiset(b')[x] + multiset{b[k]}[x];
    }
  }

  /** Mapping preserves "is a permutation of". */
  lemma {:induction false} MapSeqPerm<A, B>(f: A -> B, a: seq<A>, b: seq<A>)
    requires multiset(a) == multiset(b)
    ensures multiset(MapSeq(f, a)) == multiset(MapSeq(f, b))
    decreases |a|
  {
    assert |a| == |multiset(a)| == |multiset(b)| == |b|;
    if |a| > 0 {
      assert a[0] in multiset(b);
      var k :| 0 <= k < |b| && b[k] == a[0];
      RemoveFromPerm(a, b, k);
      MapSeqPerm(f, a[1..], b[..k] + b[k + 1..]);
      MapSeqRemoveAt(f, b, k);
      assert MapSeq(f, a) == [f(a[0])] + MapSeq(f, a[1..]);
    }
  }

  /** Two repetition-free sequences over the same elements map to permutations of each other. */
  lemma MapSameSet<A, B>(f: A -> B, a: seq<A>, b: seq<A>)
    requires NoDup(a) && NoDup(b) && forall x :: x in a <==> x in b
    ensures multiset(MapSeq(f, a)) == multiset(MapSeq(f, b))
  {
    assert Elems(a) == Elems(b);
    NoDupSameSet(a, b);
    MapSeqPerm(f, a, b);
  }

  lemma SeqPointwise<T>(a: seq<T>, b: seq<T>)
    requires |a| == |b| && forall i :: 0 <= i < |a| ==> a[i] == b[i]
    ensures a == b
  {
  }

  // ---------------------------------------------------------------------------
  // Properties of get_dir_hashes

  /** Sorting the walk first makes the result independent of the order `os.walk` produced. */
  lemma WalkOrderIrrelevant(t: Tree, hs: Hashers, cwd: string, root: string, w1: seq<string>, w2: seq<string>, excluded: Option<set<string>>)
    requires multiset(w1) == multiset(w2)
    ensures GetDirHashes(t, hs, cwd, root, w1, excluded) == GetDirHashes(t, hs, cwd, root, w2, excluded)
  {
    SortPermutation(w1, w2);
  }

  /**
    The first component is the verification code of the map's values, counted
    once per file (so two files with equal contents both count), in whatever
    order the files are enumerated.
   */
  lemma VerCodeOfHashValues(t: Tree, hs: Hashers, cwd: string, root: string, walk: seq<string>, excluded: Option<set<string>>,
                             ps: seq<string>, vals: seq<string>)
    requires GetDirHashes(t, hs, cwd, root, walk, excluded).Ok?
    requires NoDup(ps) && forall p :: p in ps <==> p in GetDirHashes(t, hs, cwd, root, walk, excluded).value.hashes
    requires |vals| == |ps| && forall i :: 0 <= i < |ps| ==> vals[i] == GetDirHashes(t, hs, cwd, root, walk, excluded).value.hashes[ps[i]]
    ensures GetDirHashes(t, hs, cwd, root, walk, excluded).value.verCode == GenVerCode(hs.sha1, vals, excluded)
  {
    var r := GetDirHashes(t, hs, cwd, root, walk, excluded);
    GetDirHashesParts(t, hs, cwd, root, walk, excluded);
    var m := HashMap(t, hs, cwd, walk);
    var d := Distinct(Files(t, cwd, walk));
    assert r.value.hashes == m;
    LookupsPerm(m, d, ps);
    SeqPointwise(Lookups(m, ps), vals);
    OrderIndependent(hs.sha1, Lookups(m, d), vals, Some(Exclusions(excluded)));
    ExclusionSemantics(hs.sha1, vals, {});
  }

  /** Looking up two repetition-free listings of the same keys gives permutations of each other. */
  lemma LookupsPerm(m: map<string, string>, a: seq<string>, b: seq<string>)
    requires NoDup(a) && NoDup(b) && (forall x :: x in a <==> x in b) && (forall x :: x in a ==> x in m)
    ensures multiset(Lookups(m, a)) == multiset(Lookups(m, b))
  {
    var f := (p: string) => if p in m then m[p] else "";
    MapSameSet(f, a, b);
    forall i | 0 <= i < |a|
      ensures MapSeq(f, a)[i] == Lookups(m, a)[i]
    {
      assert a[i] in m;
    }
    SeqPointwise(MapSeq(f, a), Lookups(m, a));
    forall i | 0 <= i < |b|
      ensures MapSeq(f, b)[i] == Lookups(m, b)[i]
    {
      assert b[i] in a;
    }
    SeqPointwise(MapSeq(f, b), Lookups(m, b));
  }

  // ---------------------------------------------------------------------------
  // The walk of a tree

  /** `b` lies strictly below `a`. */
  predicate StrictPrefix(a: seq<string>, b: seq<string>)
  {
    |a| < |b| && b[..|a|] == a
  }

  /** The entries strictly below the root `rc`: what `allpaths` enumerates. */
  function Under(t: Tree, rc: seq<string>): set<seq<string>>
  {
    set c | c in t && StrictPrefix(rc, c)
  }

  /** The files below the root whose hash is not excluded. */
  function IncludedFiles(t: Tree, hs: Hashers, rc: seq<string>, excl: set<string>): set<seq<string>>
  {
    set c | c in Under(t, rc) && t[c].File? && hs.sha256(t[c].content) !in excl
  }

  /**
    `cw` is a walk of the tree below `rc`: each entry below the root exactly
    once, in any order. The walk yields the absolute path strings of `cw`.
   */
  predicate IsWalk(t: Tree, rc: seq<string>, cw: seq<seq<string>>)
  {
    NoDup(cw) && Elems(cw) == Under(t, rc)
  }

  lemma AbsPathOfInjective(a: seq<string>, b: seq<string>)
    requires AllPlain(a) && AllPlain(b)
    ensures AbsPathOf(a) == AbsPathOf(b) ==> a == b
  {
    NormalizeRender(NormPath(1, a));
    NormalizeRender(NormPath(1, b));
  }

  /** The absolute path of a list of plain components resolves back to them. */
  lemma ResolveAbsPath(cwd: string, c: seq<string>)
    requires AllPlain(c)
    ensures AbsNormalize(cwd, AbsPathOf(c)).comps == c
    ensures AbsPathOf(c) != ""
    ensures |c| > 0 ==> Plain(Basename(AbsPathOf(c)))
  {
    NormalizeRender(NormPath(1, c));
    assert NormalForm(NormPath(1, c));
    if |c| > 0 {
      BasenameOfAbsPath(c);
    }
  }

  lemma WalkStrings(t: Tree, rc: seq<string>, cw: seq<seq<string>>)
    requires WellFormed(t) && IsWalk(t, rc, cw)
    ensures NoDup(MapSeq(AbsPathOf, cw))
    ensures forall p :: p in MapSeq(AbsPathOf, cw) <==> exists c :: c in Under(t, rc) && p == AbsPathOf(c)
    ensures "" !in MapSeq(AbsPathOf, cw)
  {
    var w := MapSeq(AbsPathOf, cw);
    forall i, j | 0 <= i < j < |w|
      ensures w[i] != w[j]
    {
      assert cw[i] in Elems(cw) && cw[j] in Elems(cw);
      AbsPathOfInjective(cw[i], cw[j]);
    }
    forall p
      ensures p in w <==> exists c :: c in Under(t, rc) && p == AbsPathOf(c)
    {
      if p in w {
        var i :| 0 <= i < |w| && w[i] == p;
        assert cw[i] in Elems(cw);
      }
      if exists c :: c in Under(t, rc) && p == AbsPathOf(c) {
        var c :| c in Under(t, rc) && p == AbsPathOf(c);
        assert c in Elems(cw);
        var i :| 0 <= i < |cw| && cw[i] == c;
        assert w[i] == p;
      }
    }
    forall i | 0 <= i < |w|
      ensures w[i] != ""
    {
      assert cw[i] in Elems(cw);
      ResolveAbsPath("/", cw[i]);
    }
  }

  /**
    Over a walk of a tree, the hash map has one entry for every regular file
    below the root, excluded or not, mapped to the SHA-256 of its contents,
    and no other entry.
   */
  lemma HashMapIsEveryFile(t: Tree, hs: Hashers, cwd: string, rc: seq<string>, cw: seq<seq<string>>, excluded: Option<set<string>>)
    requires WellFormed(t) && IsWalk(t, rc, cw)
    ensures GetDirHashes(t, hs, cwd, AbsPathOf(rc), MapSeq(AbsPathOf, cw), excluded).Ok?
    ensures var m := GetDirHashes(t, hs, cwd, AbsPathOf(rc), MapSeq(AbsPathOf, cw), excluded).value.hashes;
      forall c :: c in Under(t, rc) && t[c].File? ==> AbsPathOf(c) in m && m[AbsPathOf(c)] == hs.sha256(t[c].content)
    ensures var m := GetDirHashes(t, hs, cwd, AbsPathOf(rc), MapSeq(AbsPathOf, cw), excluded).value.hashes;
      forall p :: p in m ==> exists c :: c in Under(t, rc) && t[c].File? && p == AbsPathOf(c)
  {
    var w := MapSeq(AbsPathOf, cw);
    WalkStrings(t, rc, cw);
    var r := GetDirHashes(t, hs, cwd, AbsPathOf(rc), w, excluded);
    var m := r.value.hashes;
    forall c | c in Under(t, rc) && t[c].File?
      ensures AbsPathOf(c) in m && m[AbsPathOf(c)] == hs.sha256(t[c].content)
    {
      ResolveAbsPath(cwd, c);
      assert AbsPathOf(c) in w;
    }
    forall p | p in m
      ensures exists c :: c in Under(t, rc) && t[c].File? && p == AbsPathOf(c)
    {
      assert p in w;
      var c :| c in Under(t, rc) && p == AbsPathOf(c);
      ResolveAbsPath(cwd, c);
    }
  }

  /** The paths whose relative form enters the second code are those of the included files. */
  lemma IncludedOfWalk(t: Tree, hs: Hashers, cwd: string, rc: seq<string>, cw: seq<seq<string>>, excl: set<string>)
    requires WellFormed(t) && IsWalk(t, rc, cw)
    ensures NoDup(Included(t, hs, cwd, MapSeq(AbsPathOf, cw), excl))
    ensures forall p :: p in Included(t, hs, cwd, MapSeq(AbsPathOf, cw), excl) <==>
      exists c :: c in IncludedFiles(t, hs, rc, excl) && p == AbsPathOf(c)
    ensures "" !in Included(t, hs, cwd, MapSeq(AbsPathOf, cw), excl)
  {
    var w := MapSeq(AbsPathOf, cw);
    WalkStrings(t, rc, cw);
    var inc := Included(t, hs, cwd, w, excl);
    forall p
      ensures p in inc <==> exists c :: c in IncludedFiles(t, hs, rc, excl) && p == AbsPathOf(c)
    {
      if p in inc {
        assert p in w;
        var c :| c in Under(t, rc) && p == AbsPathOf(c);
        ResolveAbsPath(cwd, c);
        assert c in IncludedFiles(t, hs, rc, excl);
      }
      if exists c :: c in IncludedFiles(t, hs, rc, excl) && p == AbsPathOf(c) {
        var c :| c in IncludedFiles(t, hs, rc, excl) && p == AbsPathOf(c);
        ResolveAbsPath(cwd, c);
        assert p in w;
      }
    }
  }

  lemma AllPlainSuffix(c: seq<string>, k: nat)
    requires AllPlain(c) && k <= |c|
    ensures AllPlain(c[k..])
  {
    forall i | 0 <= i < |c[k..]|
      ensures Plain(c[k..][i])
    {
      assert c[k..][i] == c[k + i];
    }
  }

  /** The relative path of an entry below the root: `./` and its components below the root. */
  lemma RelOfEntry(cwd: string, rc: seq<string>, c: seq<string>)
    requires AllPlain(rc) && AllPlain(c) && StrictPrefix(rc, c)
    ensures AbsToRel(cwd, AbsPathOf(rc), AbsPathOf(c)) == Ok("./" + Join(c[|rc|..], '/'))
  {
    assert c == rc + c[|rc|..];
    AllPlainSuffix(c, |rc|);
    AbsToRelBelow(cwd, rc, c[|rc|..]);
  }

  /** The paths of an enumeration of the included files are a repetition-free listing of `inc`. */
  lemma CsPaths(t: Tree, hs: Hashers, rc: seq<string>, excl: set<string>, cs: seq<seq<string>>, inc: seq<string>)
    requires WellFormed(t)
    requires NoDup(cs) && Elems(cs) == IncludedFiles(t, hs, rc, excl)
    requires forall p :: p in inc <==> exists c :: c in IncludedFiles(t, hs, rc, excl) && p == AbsPathOf(c)
    ensures NoDup(MapSeq(AbsPathOf, cs))
    ensures forall p :: p in MapSeq(AbsPathOf, cs) <==> p in inc
  {
    var ps := MapSeq(AbsPathOf, cs);
    forall i, j | 0 <= i < j < |ps|
      ensures ps[i] != ps[j]
    {
      assert cs[i] in Elems(cs) && cs[j] in Elems(cs);
      AbsPathOfInjective(cs[i], cs[j]);
    }
    forall p
      ensures p in ps <==> p in inc
    {
      if p in ps {
        var i :| 0 <= i < |ps| && ps[i] == p;
        assert cs[i] in Elems(cs);
      }
      if p in inc {
        var c :| c in IncludedFiles(t, hs, rc, excl) && p == AbsPathOf(c);
        assert c in Elems(cs);
        var i :| 0 <= i < |cs| && cs[i] == c;
        assert ps[i] == p;
      }
    }
  }

  /**
    Over a walk of a tree, the third component is the verification code, with
    nothing excluded, of the SHA-256 of `./` followed by the path below the root
    of every regular file whose content hash is not excluded, in any order.
   */
  lemma DirCodeOfIncludedFiles(t: Tree, hs: Hashers, cwd: string, rc: seq<string>, cw: seq<seq<string>>, excluded: Option<set<string>>,
                               cs: seq<seq<string>>, relHashes: seq<string>)
    requires WellFormed(t) && AllPlain(rc) && IsWalk(t, rc, cw)
    requires NoDup(cs) && Elems(cs) == IncludedFiles(t, hs, rc, Exclusions(excluded))
    requires |relHashes| == |cs|
    requires forall i :: 0 <= i < |cs| ==> |rc| < |cs[i]| && relHashes[i] == hs.sha256Text("./" + Join(cs[i][|rc|..], '/'))
    ensures GetDirHashes(t, hs, cwd, AbsPathOf(rc), MapSeq(AbsPathOf, cw), excluded).Ok?
    ensures GetDirHashes(t, hs, cwd, AbsPathOf(rc), MapSeq(AbsPathOf, cw), excluded).value.dirCode == GenVerCode(hs.sha1, relHashes, None)
  {
    var w := MapSeq(AbsPathOf, cw);
    var root := AbsPathOf(rc);
    var excl := Exclusions(excluded);
    HashMapIsEveryFile(t, hs, cwd, rc, cw, excluded);
    IncludedOfWalk(t, hs, cwd, rc, cw, excl);
    var inc := Included(t, hs, cwd, w, excl);
    var rels := RelPaths(cwd, root, inc).value;
    GetDirHashesParts(t, hs, cwd, root, w, excluded);
    CsPaths(t, hs, rc, excl, cs, inc);
    forall i | 0 <= i < |cs|
      ensures AllPlain(cs[i]) && |rc| < |cs[i]| && StrictPrefix(rc, cs[i])
    {
      assert cs[i] in Elems(cs);
    }
    RelHashesPerm(hs.sha256Text, cwd, rc, cs, inc, rels, relHashes);
    MapSeqPerm(hs.sha256Text, Sort(rels), rels);
    OrderIndependent(hs.sha1, MapSeq(hs.sha256Text, Sort(rels)), relHashes, None);
  }

  /** The hash of the relative path of `p`, or the empty string where there is none. */
  function RelHash(h: string -> string, cwd: string, root: string, p: string): string
  {
    match AbsToRel(cwd, root, p)
    case Ok(x) => h(x)
    case Err(_) => ""
  }

  lemma RelHashesOfInc(g: string -> string, h: string -> string, cwd: string, root: string, inc: seq<string>, rels: seq<string>)
    requires forall p :: g(p) == RelHash(h, cwd, root, p)
    requires |rels| == |inc| && forall i :: 0 <= i < |inc| ==> AbsToRel(cwd, root, inc[i]) == Ok(rels[i])
    ensures MapSeq(g, inc) == MapSeq(h, rels)
  {
    forall i | 0 <= i < |inc|
      ensures MapSeq(g, inc)[i] == MapSeq(h, rels)[i]
    {
      assert g(inc[i]) == RelHash(h, cwd, root, inc[i]);
    }
    SeqPointwise(MapSeq(g, inc), MapSeq(h, rels));
  }

  lemma RelHashesOfEntries(g: string -> string, h: string -> string, cwd: string, rc: seq<string>, cs: seq<seq<string>>, relHashes: seq<string>)
    requires forall p :: g(p) == RelHash(h, cwd, AbsPathOf(rc), p)
    requires AllPlain(rc)
    requires forall i :: 0 <= i < |cs| ==> AllPlain(cs[i]) && |rc| < |cs[i]| && StrictPrefix(rc, cs[i])
    requires |relHashes| == |cs| && forall i :: 0 <= i < |cs| ==> relHashes[i] == h("./" + Join(cs[i][|rc|..], '/'))
    ensures MapSeq(g, MapSeq(AbsPathOf, cs)) == relHashes
  {
    var ps := MapSeq(AbsPathOf, cs);
    forall i | 0 <= i < |cs|
      ensures MapSeq(g, ps)[i] == relHashes[i]
    {
      RelOfEntry(cwd, rc, cs[i]);
      assert g(ps[i]) == RelHash(h, cwd, AbsPathOf(rc), AbsPathOf(cs[i]));
    }
    SeqPointwise(MapSeq(g, ps), relHashes);
  }

  /** Hashing the relative paths of `inc` gives a permutation of the hashes computed from the components. */
  lemma RelHashesPerm(h: string -> string, cwd: string, rc: seq<string>, cs: seq<seq<string>>, inc: seq<string>, rels: seq<string>, relHashes: seq<string>)
    requires AllPlain(rc)
    requires forall i :: 0 <= i < |cs| ==> AllPlain(cs[i]) && |rc| < |cs[i]| && StrictPrefix(rc, cs[i])
    requires NoDup(MapSeq(AbsPathOf, cs)) && NoDup(inc) && forall p :: p in MapSeq(AbsPathOf, cs) <==> p in inc
    requires |rels| == |inc| && forall i :: 0 <= i < |inc| ==> AbsToRel(cwd, AbsPathOf(rc), inc[i]) == Ok(rels[i])
    requires |relHashes| == |cs| && forall i :: 0 <= i < |cs| ==> relHashes[i] == h("./" + Join(cs[i][|rc|..], '/'))
    ensures multiset(MapSeq(h, rels)) == multiset(relHashes)
  {
    var g := p => RelHash(h, cwd, AbsPathOf(rc), p);
    MapSameSet(g, MapSeq(AbsPathOf, cs), inc);
    RelHashesOfInc(g, h, cwd, AbsPathOf(rc), inc, rels);
    RelHashesOfEntries(g, h, cwd, rc, cs, relHashes);
  }
}

=== FILE: names.dfy ===
/**
  The small text helpers of dosocs2/util.py: `bool_from_str`, the file-type
  classifiers over a libmagic description, `package_friendly_name`,
  `file_name_for_id`, `gen_id_string` and `friendly_namespace_suffix`.
  The libmagic description and the random UUID text are parameters.
 */
module Names {
  import opened Results
  import opened Strs
  import opened Paths

  // bool_from_str

  /** ASCII case folding of one character; every other character is kept. */
  function LowerChar(c: char): (r: char)
    ensures 'A' <= c <= 'Z' ==> r as int == c as int + 32
    ensures !('A' <= c <= 'Z') ==> r == c
  {
    if 'A' <= c <= 'Z' then (c as int + 32) as char else c
  }

  /** `str.lower`, folding ASCII letters. */
  function Lower(s: string): (r: string)
    ensures |r| == |s|
    ensures forall i :: 0 <= i < |s| ==> r[i] == LowerChar(s[i])
  {
    seq(|s|, i requires 0 <= i < |s| => LowerChar(s[i]))
  }

  /** The `ValueError` raised for any other string. */
  datatype BoolError = NotTrueOrFalse

  /** `bool_from_str(s)`. */
  function BoolFromStr(s: string): (r: Result<bool, BoolError>)
  {
    if Lower(s) == "true" then Ok(true)
    else if Lower(s) == "false" then Ok(false)
    else Err(NotTrueOrFalse)
  }

  /** Python's `str(b)`, the usual way a flag becomes text. */
  function BoolText(b: bool): string
  {
    if b then "True" else "False"
  }

  lemma LowerTrue(s: string)
    requires s == "True" || s == "TRUE" || s == "true"
    ensures Lower(s) == "true"
  {
  }

  lemma LowerFalse(s: string)
    requires s == "False" || s == "FALSE" || s == "false"
    ensures Lower(s) == "false"
  {
  }

  /** Reading back the text of a flag gives the flag. */
  lemma BoolRoundTrip(b: bool)
    ensures BoolFromStr(BoolText(b)) == Ok(b)
  {
    if b {
      LowerTrue(BoolText(b));
    } else {
      LowerFalse(BoolText(b));
      assert Lower(BoolText(b)) != "true" by {
        assert Lower(BoolText(b))[0] == 'f';
      }
    }
  }

  /** The parse depends only on the case-folded text. */
  lemma BoolCaseInsensitive(s: string, t: string)
    requires Lower(s) == Lower(t)
    ensures BoolFromStr(s) == BoolFromStr(t)
  {
  }

  /** A string parses exactly when it folds to one of the two words, and the value tells which. */
  lemma BoolAccepts(s: string)
    ensures BoolFromStr(s).Ok? <==> Lower(s) == "true" || Lower(s) == "false"
    ensures BoolFromStr(s) == Ok(true) <==> Lower(s) == "true"
    ensures BoolFromStr(s) == Ok(false) <==> Lower(s) == "false"
  {
  }

  /** Parsing is a left inverse of printing on every accepted string: the result, printed, folds to the input. */
  lemma BoolParsePrint(s: string)
    requires BoolFromStr(s).Ok?
    ensures Lower(BoolText(BoolFromStr(s).value)) == Lower(s)
  {
    if Lower(s) == "true" {
      LowerTrue(BoolText(true));
    } else {
      LowerFalse(BoolText(false));
    }
  }

  // is_source, is_binary, spdx_filetype

  /** `is_source(magic_string)`. */
  predicate IsSource(m: string)
  {
    (Contains(m, " source") && Contains(m, " text"))
    || (Contains(m, " script") && Contains(m, " text"))
    || (Contains(m, " program") && Contains(m, " text"))
    || Contains(m, " shell script")
    || Contains(m, " text executable")
    || (Contains(m, "HTML") && Contains(m, "text"))
    || (Contains(m, "XML") && Contains(m, "text"))
  }

  /** `is_binary(magic_string)`. */
  predicate IsBinary(m: string)
  {
    Contains(m, " executable")
    || Contains(m, " relocatable")
    || Contains(m, " shared object")
    || Contains(m, " dynamically linked")
    || Contains(m, " ar archive")
  }

  datatype FileType = Source | Binary | Archive | Other

  /** `spdx_filetype` applied to the libmagic description `m` of the file. */
  function SpdxFiletype(m: string): (r: FileType)
    ensures r == Source <==> IsSource(m)
    ensures r == Binary <==> !IsSource(m) && IsBinary(m)
    ensures r == Archive <==> !IsSource(m) && !IsBinary(m) && Contains(m, "archive")
    ensures r == Other <==> !IsSource(m) && !IsBinary(m) && !Contains(m, "archive")
  {
    if IsSource(m) then Source
    else if IsBinary(m) then Binary
    else if Contains(m, "archive") then Archive
    else Other
  }

  lemma ContainsExtend(m: string, n: string, x: string, y: string)
    requires Contains(m, n)
    ensures Contains(x + m + y, n)
  {
    var i: nat :| OccursAt(m, n, i);
    assert (x + m + y)[|x| + i..|x| + i + |n|] == m[i..i + |n|];
    assert OccursAt(x + m + y, n, |x| + i);
  }

  /** Whatever surrounds a description that reads as source, the file stays source. */
  lemma SourceIsStable(m: string, x: string, y: string)
    requires IsSource(m)
    ensures SpdxFiletype(x + m + y) == Source
  {
    var n := x + m + y;
    forall needle | Contains(m, needle)
      ensures Contains(n, needle)
    {
      ContainsExtend(m, needle, x, y);
    }
    SourceOfSuperstring(m, n);
  }

  /** A description containing every substring of a source description is itself source. */
  lemma SourceOfSuperstring(m: string, n: string)
    requires forall needle :: Contains(m, needle) ==> Contains(n, needle)
    ensures IsSource(m) ==> IsSource(n)
  {
  }

  /** Any description that mentions an archive is never classified as `OTHER`. */
  lemma ArchiveNeverOther(m: string)
    requires Contains(m, "archive")
    ensures SpdxFiletype(m) != Other
  {
  }

  /**
    An `ar` archive (a static library) counts as `BINARY`, not `ARCHIVE`,
    because the binary test comes first: any description with no source
    marker, followed by ` ar archive`, is `BINARY`, although it mentions an
    archive.
   */
  lemma ArArchiveIsBinary(m: string, x: string)
    requires !IsSource(x)
    requires m == x + " ar archive"
    ensures SpdxFiletype(m) == Binary
    ensures IsBinary(m) && Contains(m, "archive")
  {
    assert Contains(" ar archive", " ar archive") by {
      assert OccursAt(" ar archive", " ar archive", 0);
    }
    ContainsExtend(" ar archive", " ar archive", x, "");
    assert x + " ar archive" + "" == m;
    assert Contains(" ar archive", "archive") by {
      assert OccursAt(" ar archive", "archive", 4);
    }
    ContainsExtend(" ar archive", "archive", x, "");
    ArSuffixAddsNoSource(x);
  }

  /** Appending ` ar archive` completes no source marker that was not already there. */
  lemma ArSuffixAddsNoSource(x: string)
    ensures IsSource(x + " ar archive") ==> IsSource(x)
  {
    ArSuffixKeepsOutSpaced(x);
    ArSuffixKeepsOutLong(x);
    ArSuffixKeepsOutBare(x);
  }

  lemma ArSuffixKeepsOutSpaced(x: string)
    ensures Contains(x + " ar archive", " source") ==> Contains(x, " source")
    ensures Contains(x + " ar archive", " text") ==> Contains(x, " text")
    ensures Contains(x + " ar archive", " script") ==> Contains(x, " script")
    ensures Contains(x + " ar archive", " program") ==> Contains(x, " program")
  {
    ArSuffixKeepsOut(x, " source", 1);
    ArSuffixKeepsOut(x, " text", 1);
    ArSuffixKeepsOut(x, " script", 1);
    ArSuffixKeepsOut(x, " program", 1);
  }

  lemma ArSuffixKeepsOutLong(x: string)
    ensures Contains(x + " ar archive", " shell script") ==> Contains(x, " shell script")
    ensures Contains(x + " ar archive", " text executable") ==> Contains(x, " text executable")
  {
    ArSuffixKeepsOut(x, " shell script", 1);
    ArSuffixKeepsOut(x, " text executable", 1);
  }

  lemma ArSuffixKeepsOutBare(x: string)
    ensures Contains(x + " ar archive", "HTML") ==> Contains(x, "HTML")
    ensures Contains(x + " ar archive", "XML") ==> Contains(x, "XML")
    ensures Contains(x + " ar archive", "text") ==> Contains(x, "text")
  {
    ArSuffixKeepsOut(x, "HTML", 0);
    ArSuffixKeepsOut(x, "XML", 0);
    ArSuffixKeepsOut(x, "text", 0);
  }

  /** Past its first character, every space in `k` is followed by a character other than `a`. */
  predicate NoSpaceA(k: string)
  {
    forall j :: 0 < j < |k| && k[j] == ' ' ==> j + 1 < |k| && k[j + 1] != 'a'
  }

  /** A needle holding a character the haystack lacks does not occur in it. */
  lemma AbsentChar(hay: string, k: string, j: nat)
    requires j < |k| && k[j] !in hay
    ensures !Contains(hay, k)
  {
  }

  /** An occurrence in `x + y` lies in `x`, lies in `y`, or straddles the boundary. */
  lemma OccurrenceInAppend(x: string, y: string, k: string, i: nat)
    requires OccursAt(x + y, k, i)
    ensures OccursAt(x, k, i)
      || (i >= |x| && OccursAt(y, k, i - |x|))
      || (i < |x| < i + |k| && k[|x| - i] == y[0] && (|x| - i + 1 < |k| ==> k[|x| - i + 1] == y[1]))
  {
    var s := x + y;
    if i + |k| <= |x| {
      assert s[i..i + |k|] == x[i..i + |k|];
    } else if i >= |x| {
      assert s[i..i + |k|] == y[i - |x|..i - |x| + |k|];
    } else {
      var j := |x| - i;
      assert s[i..i + |k|][j] == y[0];
      if j + 1 < |k| {
        assert s[i..i + |k|][j + 1] == y[1];
      }
    }
  }

  /** A marker that cannot straddle into ` ar archive` and holds a character it lacks is found in `x + " ar archive"` only if in `x`. */
  lemma ArSuffixKeepsOut(x: string, k: string, j: nat)
    requires NoSpaceA(k) && j < |k| && k[j] !in " ar archive"
    ensures Contains(x + " ar archive", k) ==> Contains(x, k)
  {
    AbsentChar(" ar archive", k, j);
    if Contains(x + " ar archive", k) {
      var i: nat :| OccursAt(x + " ar archive", k, i);
      OccurrenceInAppend(x, " ar archive", k, i);
    }
  }

  // package_friendly_name

  /** `package_friendly_name(package_file_name)`: drop one extension, and a second when the first leaves `.tar`. */
  function PackageFriendlyName(name: string): (r: string)
    ensures StartsWith(name, r)
    ensures '.' !in name ==> r == name
  {
    var newName := SplitExt(name).0;
    assert name[..|newName|] == newName by {
      assert name == newName + SplitExt(name).1;
    }
    if EndsWith(newName, ".tar") then
      var inner := SplitExt(newName).0;
      assert newName[..|inner|] == inner by {
        assert newName == inner + SplitExt(newName).1;
      }
      inner
    else
      ExtensionHasDot(name);
      newName
  }

  lemma ExtensionHasDot(p: string)
    ensures SplitExt(p).1 != "" ==> '.' in p
  {
    var r := SplitExt(p);
    if r.1 != "" {
      assert p[|r.0|] == r.1[0];
    }
  }

  lemma {:induction false} RFindAppend(a: string, b: string, c: char)
    ensures RFind(a + b, c) == if c in b then |a| + RFind(b, c) else RFind(a, c)
    decreases |b|
  {
    if |b| == 0 {
      assert a + b == a;
    } else if b[|b| - 1] == c {
    } else {
      var b' := b[..|b| - 1];
      assert (a + b)[..|a + b| - 1] == a + b';
      RFindAppend(a, b', c);
      assert c in b <==> c in b' by {
        assert b == b' + [b[|b| - 1]];
      }
      if c in b' {
        assert RFind(b, c) == RFind(b', c);
      }
    }
  }

  lemma RFindAbsent(s: string, c: char)
    requires c !in s
    ensures RFind(s, c) == -1
  {
  }

  /** `splitext` of `base + "." + ext` with a plain `base` and `ext`. */
  lemma SplitExtOfPlain(base: string, ext: string, p: string)
    requires '/' !in base && '/' !in ext && '.' !in ext
    requires exists k :: 0 <= k < |base| && base[k] != '.'
    requires p == base + "." + ext
    ensures SplitExt(p) == (base, "." + ext)
  {
    RFindAppend(base, "." + ext, '.');
    RFindAppend(base, "." + ext, '/');
    RFindAppend(".", ext, '.');
    RFindAbsent(ext, '.');
    RFindAbsent(base, '/');
    assert '/' !in "." + ext;
    assert base + "." + ext == base + ("." + ext);
    assert RFind(p, '.') == |base|;
    assert RFind(p, '/') == -1;
    var k :| 0 <= k < |base| && base[k] != '.';
    assert p[k] == base[k];
    assert HasNonDot(p, 0, |base|);
    assert p[..|base|] == base;
    assert p[|base|..] == "." + ext;
  }

  /**
    A name with one extension loses exactly that extension, dots earlier in
    the name (as in `pkg-1.0.zip`) included, unless what remains ends in `.tar`.
   */
  lemma FriendlyNameStripsOne(base: string, ext: string)
    requires '/' !in base && exists k :: 0 <= k < |base| && base[k] != '.'
    requires !EndsWith(base, ".tar")
    requires '/' !in ext && '.' !in ext
    ensures PackageFriendlyName(base + "." + ext) == base
  {
    SplitExtOfPlain(base, ext, base + "." + ext);
  }

  /** `name.tar.gz` (and `.tar.bz2`, `.tar.xz`, ...) is reduced to `name`, so `pkg-1.0.tar.gz` becomes `pkg-1.0`. */
  lemma FriendlyNameStripsTar(base: string, ext: string)
    requires '/' !in base && exists k :: 0 <= k < |base| && base[k] != '.'
    requires '/' !in ext && '.' !in ext
    ensures PackageFriendlyName(base + ".tar." + ext) == base
  {
    var tarName := base + ".tar";
    assert tarName + "." + ext == base + ".tar." + ext;
    assert tarName[|base| + 1] == 't';
    SplitExtOfPlain(tarName, ext, base + ".tar." + ext);
    assert EndsWith(tarName, ".tar") by {
      assert tarName[|tarName| - 4..] == ".tar";
    }
    assert base + "." + "tar" == tarName;
    SplitExtOfPlain(base, "tar", tarName);
  }

  // file_name_for_id

  predicate IsIdChar(c: char)
  {
    ('A' <= c <= 'Z') || ('a' <= c <= 'z') || ('0' <= c <= '9')
  }

  /** The regular-expression substitution of every character outside `[A-Za-z0-9]` by `_`. */
  function Sanitize(s: string): (r: string)
    ensures |r| == |s|
    ensures forall i :: 0 <= i < |s| ==> r[i] == if IsIdChar(s[i]) then s[i] else '_'
  {
    seq(|s|, i requires 0 <= i < |s| => if IsIdChar(s[i]) then s[i] else '_')
  }

  /** At most 20 characters. */
  const IdNameLimit: nat := 20

  /** `file_name_for_id(file_name)`. */
  function FileNameForId(fileName: string): (r: string)
    ensures |r| <= IdNameLimit
    ensures forall i :: 0 <= i < |r| ==> IsIdChar(r[i]) || r[i] == '_'
  {
    Slice(Sanitize(Basename(fileName)), 0, IdNameLimit)
  }

  /** The result is the sanitised basename, cut to 20 characters, character for character. */
  lemma FileNameForIdContents(fileName: string)
    ensures var b := Basename(fileName);
      var r := FileNameForId(fileName);
      |r| == (if |b| < IdNameLimit then |b| else IdNameLimit)
      && (forall i :: 0 <= i < |r| && IsIdChar(b[i]) ==> r[i] == b[i])
      && (forall i :: 0 <= i < |r| && !IsIdChar(b[i]) ==> r[i] == '_')
  {
    var b := Basename(fileName);
    var r := FileNameForId(fileName);
    forall i | 0 <= i < |r|
      ensures r[i] == if IsIdChar(b[i]) then b[i] else '_'
    {
      assert r[i] == Sanitize(b)[i];
    }
  }

  /** Applying it twice changes nothing. */
  lemma FileNameForIdIdempotent(fileName: string)
    ensures FileNameForId(FileNameForId(fileName)) == FileNameForId(fileName)
  {
    var r := FileNameForId(fileName);
    assert '/' !in r by {
      forall i | 0 <= i < |r|
        ensures r[i] != '/'
      {
      }
    }
    BasenameNoSep(r);
    var s := Sanitize(r);
    forall i | 0 <= i < |r|
      ensures s[i] == r[i]
    {
    }
    assert s == r;
  }

  lemma BasenameNoSep(p: string)
    requires '/' !in p
    ensures Basename(p) == p
  {
    RFindAbsent(p, '/');
  }

  /** Only the final path component matters. */
  lemma FileNameForIdIgnoresDirectory(dir: string, name: string)
    requires '/' !in name
    ensures FileNameForId(dir + "/" + name) == FileNameForId(name)
  {
    var p := dir + "/" + name;
    assert p == (dir + "/") + name;
    RFindAppend(dir + "/", name, '/');
    RFindAbsent(name, '/');
    assert RFind(dir + "/", '/') == |dir|;
    assert p[|dir| + 1..] == name;
    BasenameNoSep(name);
  }

  // gen_id_string

  predicate IsHexDigit(c: char)
  {
    ('0' <= c <= '9') || ('a' <= c <= 'f')
  }

  /** The text of `str(uuid.uuid4())`: 36 characters, lower-case hex in groups 8-4-4-4-12. */
  predicate UuidText(u: string)
  {
    |u| == 36
    && (forall i :: 0 <= i < 36 ==> (u[i] == '-' <==> i == 8 || i == 13 || i == 18 || i == 23))
    && (forall i :: 0 <= i < 36 && u[i] != '-' ==> IsHexDigit(u[i]))
  }

  /** The part made from the hash: its first four characters, or four characters of the UUID when there is no hash. */
  function HashPart(sha256: Option<string>, uuid4: string): (r: string)
    ensures |r| <= 4
    ensures sha256.Some? ==> |r| == if |sha256.value| < 4 then |sha256.value| else 4
    ensures sha256.Some? ==> StartsWith(sha256.value, r)
    ensures sha256.None? && UuidText(uuid4) ==> r == uuid4[24..28]
  {
    if sha256.None? then Slice(uuid4, 24, 28)
    else
      var h := Slice(sha256.value, 0, 4);
      assert sha256.value[..|h|] == h;
      h
  }

  /** The name part: the sanitised file name, or a piece of the UUID when there is none or it is empty. */
  function NamePart(fileName: Option<string>, uuid4: string): string
  {
    if fileName.None? || fileName.value == "" then FileNameForId(Slice(uuid4, 9, 39))
    else FileNameForId(fileName.value)
  }

  /** `gen_id_string(prefix, file_name, sha256)` given the UUID text it draws. */
  function GenIdString(prefix: string, fileName: Option<string>, sha256: Option<string>, uuid4: string): (r: string)
    ensures StartsWith(r, "SPDXRef-" + prefix + "-")
  {
    var suffix := HashPart(sha256, uuid4) + "-" + Slice(uuid4, 0, 8);
    var head := "SPDXRef-" + prefix + "-";
    var r := head + (NamePart(fileName, uuid4) + "-" + suffix);
    assert r[..|head|] == head;
    r
  }

  /** The eight leading characters of a UUID hold no `-`. */
  lemma UuidHead(u: string)
    requires UuidText(u)
    ensures Slice(u, 0, 8) == u[..8] && '-' !in u[..8]
  {
    forall i | 0 <= i < 8
      ensures u[..8][i] != '-'
    {
      assert u[..8][i] == u[i];
    }
  }

  lemma NoDashInName(fileName: Option<string>, uuid4: string)
    ensures '-' !in NamePart(fileName, uuid4)
  {
    var n := NamePart(fileName, uuid4);
    forall i | 0 <= i < |n|
      ensures n[i] != '-'
    {
    }
  }

  /**
    The identifier splits on `-` back into its five fields, when the prefix
    and the hash part hold no `-`: so the name, the hash part and the UUID
    head can be read back from it.
   */
  lemma GenIdStringFields(prefix: string, fileName: Option<string>, sha256: Option<string>, uuid4: string)
    requires UuidText(uuid4)
    requires '-' !in prefix && '-' !in HashPart(sha256, uuid4)
    ensures Split(GenIdString(prefix, fileName, sha256, uuid4), '-')
      == ["SPDXRef", prefix, NamePart(fileName, uuid4), HashPart(sha256, uuid4), uuid4[..8]]
  {
    UuidHead(uuid4);
    FieldsOfGenId(prefix, fileName, sha256, uuid4);
  }

  lemma FieldsOfGenId(prefix: string, fileName: Option<string>, sha256: Option<string>, uuid4: string)
    requires '-' !in prefix && '-' !in HashPart(sha256, uuid4) && '-' !in Slice(uuid4, 0, 8)
    ensures Split(GenIdString(prefix, fileName, sha256, uuid4), '-')
      == ["SPDXRef", prefix, NamePart(fileName, uuid4), HashPart(sha256, uuid4), Slice(uuid4, 0, 8)]
  {
    var name, hp, u8 := NamePart(fileName, uuid4), HashPart(sha256, uuid4), Slice(uuid4, 0, 8);
    var fields := ["SPDXRef", prefix, name, hp, u8];
    assert GenIdString(prefix, fileName, sha256, uuid4) == Join(fields, '-') by {
      GenIdStringIsJoin(prefix, fileName, sha256, uuid4);
    }
    assert Split(Join(fields, '-'), '-') == fields by {
      NoDashInName(fileName, uuid4);
      NoDashInHead();
      SplitFive("SPDXRef", prefix, name, hp, u8, '-');
    }
  }

  lemma NoDashInHead()
    ensures '-' !in "SPDXRef"
  {
  }

  lemma SplitFive(a: string, b: string, c: string, d: string, e: string, sep: char)
    requires sep !in a && sep !in b && sep !in c && sep !in d && sep !in e
    ensures Split(Join([a, b, c, d, e], sep), sep) == [a, b, c, d, e]
  {
    SplitJoin([a, b, c, d, e], sep);
  }

  /** The identifier is its five fields joined with `-`. */
  lemma GenIdStringIsJoin(prefix: string, fileName: Option<string>, sha256: Option<string>, uuid4: string)
    ensures GenIdString(prefix, fileName, sha256, uuid4)
      == Join(["SPDXRef", prefix, NamePart(fileName, uuid4), HashPart(sha256, uuid4), Slice(uuid4, 0, 8)], '-')
  {
    GenIdStringShape(prefix, fileName, sha256, uuid4);
    JoinFive("SPDXRef", prefix, NamePart(fileName, uuid4), HashPart(sha256, uuid4), Slice(uuid4, 0, 8), '-');
  }

  lemma GenIdStringShape(prefix: string, fileName: Option<string>, sha256: Option<string>, uuid4: string)
    ensures GenIdString(prefix, fileName, sha256, uuid4)
      == "SPDXRef" + "-" + (prefix + "-" + (NamePart(fileName, uuid4) + "-" + (HashPart(sha256, uuid4) + "-" + Slice(uuid4, 0, 8))))
  {
    HeadLiteral();
    var rest := NamePart(fileName, uuid4) + "-" + (HashPart(sha256, uuid4) + "-" + Slice(uuid4, 0, 8));
    DashAssoc("SPDXRef", prefix, rest);
  }

  lemma DashAssoc(h: string, p: string, x: string)
    ensures h + "-" + p + "-" + x == h + "-" + (p + "-" + x)
  {
  }

  lemma HeadLiteral()
    ensures "SPDXRef-" == "SPDXRef" + "-"
  {
  }

  lemma JoinFive(a: string, b: string, c: string, d: string, e: string, sep: char)
    ensures Join([a, b, c, d, e], sep) == a + [sep] + (b + [sep] + (c + [sep] + (d + [sep] + e)))
  {
    assert [a, b, c, d, e][1..] == [b, c, d, e];
    assert [b, c, d, e][1..] == [c, d, e];
    assert [c, d, e][1..] == [d, e];
    assert [d, e][1..] == [e];
    assert Join([d, e], sep) == d + [sep] + e;
    assert Join([c, d, e], sep) == c + [sep] + (d + [sep] + e);
    assert Join([b, c, d, e], sep) == b + [sep] + (c + [sep] + (d + [sep] + e));
  }

  /** Identifiers drawn with different UUID heads differ, whatever else is given: each ends with its UUID's head. */
  lemma GenIdStringDistinct(prefix: string, fileName: Option<string>, sha256: Option<string>, u: string, v: string)
    requires UuidText(u) && UuidText(v) && u[..8] != v[..8]
    ensures GenIdString(prefix, fileName, sha256, u) != GenIdString(prefix, fileName, sha256, v)
  {
    assert |u| == 36 && |v| == 36;
    GenIdEndsWithUuidHead(prefix, fileName, sha256, u);
    GenIdEndsWithUuidHead(prefix, fileName, sha256, v);
    DifferentEnds(GenIdString(prefix, fileName, sha256, u), GenIdString(prefix, fileName, sha256, v), u[..8], v[..8]);
  }

  /** The identifier's last eight characters are the UUID's first eight. */
  lemma GenIdEndsWithUuidHead(prefix: string, fileName: Option<string>, sha256: Option<string>, u: string)
    requires |u| >= 8
    ensures EndsWith(GenIdString(prefix, fileName, sha256, u), u[..8])
  {
    GenIdStringShape(prefix, fileName, sha256, u);
    EndsWithNested("SPDXRef", prefix, NamePart(fileName, u), HashPart(sha256, u), Slice(u, 0, 8));
  }

  lemma EndsWithNested(head: string, prefix: string, name: string, hp: string, tail: string)
    ensures EndsWith(head + "-" + (prefix + "-" + (name + "-" + (hp + "-" + tail))), tail)
  {
    var r := head + "-" + (prefix + "-" + (name + "-" + (hp + "-" + tail)));
    assert r == (head + "-" + prefix + "-" + name + "-" + hp + "-") + tail;
    assert r[|r| - |tail|..] == tail;
  }

  lemma DifferentEnds(r1: string, r2: string, x: string, y: string)
    requires EndsWith(r1, x) && EndsWith(r2, y) && |x| == |y| && x != y
    ensures r1 != r2
  {
  }

  /** An empty file name is treated like a missing one. */
  lemma EmptyFileNameIsMissing(prefix: string, sha256: Option<string>, uuid4: string)
    ensures GenIdString(prefix, Some(""), sha256, uuid4) == GenIdString(prefix, None, sha256, uuid4)
  {
  }

  /** Only the first four characters of the hash matter. */
  lemma HashPartUsesFourChars(a: string, b: string, uuid4: string)
    requires |a| >= 4 && |b| >= 4 && a[..4] == b[..4]
    ensures HashPart(Some(a), uuid4) == HashPart(Some(b), uuid4) == a[..4]
  {
  }

  // friendly_namespace_suffix

  /** `friendly_namespace_suffix(doc_name)` given the UUID text it draws. */
  function FriendlyNamespaceSuffix(docName: string, uuid4: string): (r: string)
    ensures |r| == |docName| + |uuid4| + 2
    ensures StartsWith(r, "/") && EndsWith(r, "-" + uuid4)
  {
    var r := "/" + docName + "-" + uuid4;
    assert r[..1] == "/";
    assert r[|r| - |uuid4| - 1..] == "-" + uuid4;
    r
  }

  /** The document name is recovered from the suffix by dropping the slash and the UUID. */
  lemma NamespaceSuffixRecoversName(docName: string, uuid4: string)
    ensures var r := FriendlyNamespaceSuffix(docName, uuid4);
      r[1..|r| - |uuid4| - 1] == docName
  {
    var r := FriendlyNamespaceSuffix(docName, uuid4);
    assert r == "/" + docName + "-" + uuid4;
  }
}

=== FILE: paths.dfy ===
/**
  The parts of Python's `posixpath` that dosocs2/util.py relies on:
  `join`, `normpath`, `abspath` (with the working directory as a parameter),
  `relpath`, `commonprefix`, `basename` and `splitext`. Paths are strings;
  a normalised path is a count of leading slashes and a list of components.
 */
module Paths {
  import opened Results
  import opened Strs

  /** `posixpath.join(a, b)`: an absolute `b` replaces `a`; otherwise one separator goes between. */
  function PathJoin(a: string, b: string): (r: string)
    ensures StartsWith(b, "/") ==> r == b
    ensures !StartsWith(b, "/") ==> StartsWith(r, a) && EndsWith(r, b) && |r| <= |a| + 1 + |b|
  {
    if StartsWith(b, "/") then b
    else if a == "" || a[|a| - 1] == '/' then a + b
    else a + "/" + b
  }

  /**
    An absolute `b` replaces `a`; a relative `b` is appended to `a` with one
    `/` added only when `a` is non-empty and does not already end in `/`.
   */
  lemma PathJoinSeparator(a: string, b: string)
    ensures StartsWith(b, "/") ==> PathJoin(a, b) == b
    ensures !StartsWith(b, "/") && (a == "" || EndsWith(a, "/")) ==> PathJoin(a, b) == a + b
    ensures !StartsWith(b, "/") && a != "" && !EndsWith(a, "/") ==> PathJoin(a, b) == a + "/" + b
  {
    if a != "" {
      assert a[|a| - 1..] == [a[|a| - 1]];
    }
  }

  /** `posixpath.join(first, *rest)`. */
  function PathJoinAll(first: string, rest: seq<string>): string
    decreases |rest|
  {
    if |rest| == 0 then first else PathJoinAll(PathJoin(first, rest[0]), rest[1..])
  }

  /** A path after `normpath`: its leading slashes (0, 1 or 2) and its components. */
  datatype NormPath = NormPath(slashes: nat, comps: seq<string>)

  /** POSIX keeps exactly two leading slashes; one, or three or more, become one. */
  function InitialSlashes(p: string): nat
  {
    if StartsWith(p, "//") && !StartsWith(p, "///") then 2
    else if StartsWith(p, "/") then 1
    else 0
  }

  /** One turn of `normpath`'s loop: skip empty and `.`, let `..` cancel a component. */
  function NormStep(acc: seq<string>, c: string, rooted: bool): seq<string>
  {
    if c == "" || c == "." then acc
    else if c != ".." || (!rooted && |acc| == 0) || (|acc| > 0 && acc[|acc| - 1] == "..") then acc + [c]
    else if |acc| > 0 then acc[..|acc| - 1]
    else acc
  }

  function NormComps(comps: seq<string>, rooted: bool, acc: seq<string>): seq<string>
    decreases |comps|
  {
    if |comps| == 0 then acc else NormComps(comps[1..], rooted, NormStep(acc, comps[0], rooted))
  }

  /** The structure `normpath` computes before it renders the result. */
  function Normalize(p: string): NormPath
  {
    var k := InitialSlashes(p);
    NormPath(k, NormComps(Split(p, '/'), k > 0, []))
  }

  /** The string of a normalised path; the empty relative path is `.`. */
  function Render(n: NormPath): string
  {
    var s := Rep(n.slashes, '/') + Join(n.comps, '/');
    if s == "" then "." else s
  }

  /** `posixpath.normpath`. */
  function Normpath(p: string): string
  {
    Render(Normalize(p))
  }

  /** `posixpath.isabs`. */
  predicate IsAbs(p: string)
  {
    StartsWith(p, "/")
  }

  /** `posixpath.abspath`, structured; `cwd` stands for `os.getcwd()`. */
  function AbsNormalize(cwd: string, p: string): NormPath
  {
    Normalize(if IsAbs(p) then p else PathJoin(cwd, p))
  }

  /** `posixpath.abspath`. */
  function Abspath(cwd: string, p: string): string
  {
    Render(AbsNormalize(cwd, p))
  }

  /** A component `normpath` may leave: non-empty, not `.`, free of separators. */
  predicate Clean(c: string)
  {
    c != "" && c != "." && '/' !in c
  }

  /** A component that names an entry: clean and not `..`. */
  predicate Plain(c: string)
  {
    Clean(c) && c != ".."
  }

  predicate AllPlain(cs: seq<string>)
  {
    forall i :: 0 <= i < |cs| ==> Plain(cs[i])
  }

  /**
    The shape of every `normpath` result: at most two leading slashes, clean
    components, and `..` only as a leading run of a relative path.
   */
  predicate NormalForm(n: NormPath)
  {
    && n.slashes <= 2
    && (forall i :: 0 <= i < |n.comps| ==> Clean(n.comps[i]))
    && (n.slashes > 0 ==> AllPlain(n.comps))
    && (forall i, j :: 0 <= i < j < |n.comps| && n.comps[j] == ".." ==> n.comps[i] == "..")
  }

  /** The string of the absolute path with components `cs`: `/` followed by them joined with `/`. */
  function AbsPathOf(cs: seq<string>): string
  {
    Render(NormPath(1, cs))
  }

  // ---------------------------------------------------------------------------
  // normpath: every result is in normal form, and normal forms are fixed points

  predicate NormAcc(acc: seq<string>, rooted: bool)
  {
    NormalForm(NormPath(if rooted then 1 else 0, acc))
  }

  lemma NormStepKeepsForm(acc: seq<string>, c: string, rooted: bool)
    requires NormAcc(acc, rooted)
    requires '/' !in c
    ensures NormAcc(NormStep(acc, c, rooted), rooted)
  {
    var r := NormStep(acc, c, rooted);
    if c == "" || c == "." {
    } else if c != ".." {
      assert r == acc + [c];
    } else if rooted {
      assert |acc| == 0 || Plain(acc[|acc| - 1]);
      assert r == if |acc| > 0 then acc[..|acc| - 1] else acc;
    } else if |acc| == 0 || acc[|acc| - 1] == ".." {
      assert r == acc + [c];
      forall i | 0 <= i < |r|
        ensures r[i] == ".."
      {
        if i < |acc| - 1 {
          assert acc[i] == "..";
        }
      }
    } else {
      assert r == acc[..|acc| - 1];
    }
  }

  lemma {:induction false} NormCompsKeepsForm(comps: seq<string>, rooted: bool, acc: seq<string>)
    requires NormAcc(acc, rooted)
    requires forall i :: 0 <= i < |comps| ==> '/' !in comps[i]
    ensures NormAcc(NormComps(comps, rooted, acc), rooted)
    decreases |comps|
  {
    if |comps| > 0 {
      NormStepKeepsForm(acc, comps[0], rooted);
      NormCompsKeepsForm(comps[1..], rooted, NormStep(acc, comps[0], rooted));
    }
  }

  /** `normpath` always produces a normal form: in particular an absolute result holds no `..`. */
  lemma NormalizeNormal(p: string)
    ensures NormalForm(Normalize(p))
  {
    var k := InitialSlashes(p);
    NormCompsKeepsForm(Split(p, '/'), k > 0, []);
  }

  lemma {:induction false} NormCompsSkipsEmpty(n: nat, rest: seq<string>, rooted: bool)
    ensures NormComps(Rep(n, "") + rest, rooted, []) == NormComps(rest, rooted, [])
    decreases n
  {
    if n > 0 {
      var s := Rep(n, "") + rest;
      assert s[0] == "";
      assert s[1..] == Rep(n - 1, "") + rest;
      NormCompsSkipsEmpty(n - 1, rest, rooted);
    } else {
      assert Rep(n, "") + rest == rest;
    }
  }

  lemma {:induction false} NormCompsIdentity(cs: seq<string>, rooted: bool, acc: seq<string>)
    requires NormAcc(acc + cs, rooted)
    ensures NormComps(cs, rooted, acc) == acc + cs
    decreases |cs|
  {
    if |cs| == 0 {
      assert acc + cs == acc;
    } else {
      var all := acc + cs;
      assert all[|acc|] == cs[0];
      assert Clean(cs[0]);
      assert rooted ==> Plain(all[|acc|]);
      assert cs[0] == ".." ==> !rooted;
      assert cs[0] == ".." && |acc| > 0 ==> all[|acc| - 1] == acc[|acc| - 1] == "..";
      assert NormStep(acc, cs[0], rooted) == acc + [cs[0]];
      assert (acc + [cs[0]]) + cs[1..] == all;
      NormCompsIdentity(cs[1..], rooted, acc + [cs[0]]);
    }
  }

  lemma JoinStartsWith(cs: seq<string>, sep: char)
    requires |cs| > 0
    ensures StartsWith(Join(cs, sep), cs[0])
  {
  }

  lemma SplitLeadingSep(t: string, sep: char)
    ensures Split([sep] + t, sep) == [""] + Split(t, sep)
  {
    var s := [sep] + t;
    assert s[0] == sep;
    assert IndexOf(s, sep) == 0;
    assert s[1..] == t;
  }

  lemma RepConsAppend<T>(n: nat, x: T, t: seq<T>)
    requires n > 0
    ensures Rep(n, x) + t == [x] + (Rep(n - 1, x) + t)
  {
  }

  lemma SplitLeadingSepsStep(n: nat, t: string, sep: char)
    requires n > 0
    requires Split(Rep(n - 1, sep) + t, sep) == Rep(n - 1, "") + Split(t, sep)
    ensures Split(Rep(n, sep) + t, sep) == Rep(n, "") + Split(t, sep)
  {
    RepConsAppend(n, sep, t);
    SplitLeadingSep(Rep(n - 1, sep) + t, sep);
    RepConsAppend(n, "", Split(t, sep));
  }

  lemma {:induction false} SplitLeadingSeps(n: nat, t: string, sep: char)
    ensures Split(Rep(n, sep) + t, sep) == Rep(n, "") + Split(t, sep)
    decreases n
  {
    if n > 0 {
      SplitLeadingSeps(n - 1, t, sep);
      SplitLeadingSepsStep(n, t, sep);
    } else {
      assert Rep(n, sep) + t == t;
      assert Rep(n, "") + Split(t, sep) == Split(t, sep);
    }
  }

  /** A rendered normal form starts with exactly its own number of slashes. */
  lemma InitialSlashesRender(n: NormPath)
    requires NormalForm(n)
    requires n.slashes > 0 || |n.comps| > 0
    ensures InitialSlashes(Render(n)) == n.slashes
  {
    var body := Join(n.comps, '/');
    var s := Render(n);
    assert s == Rep(n.slashes, '/') + body;
    assert |body| > 0 ==> body[0] != '/' by {
      if |n.comps| > 0 {
        JoinStartsWith(n.comps, '/');
        assert body[0] == n.comps[0][0];
      }
    }
    assert |s| > n.slashes ==> s[n.slashes] == body[0];
    if n.slashes == 2 {
      assert s[..2] == "//";
    } else if n.slashes == 1 {
      assert s[..1] == "/";
    }
  }

  /** Splitting a rendered absolute-or-nonempty normal form gives empties for its slashes, then its components. */
  lemma SplitRender(n: NormPath)
    requires NormalForm(n)
    requires n.slashes > 0 || |n.comps| > 0
    ensures Split(Render(n), '/') == Rep(n.slashes, "") + (if |n.comps| > 0 then n.comps else [""])
  {
    var body := Join(n.comps, '/');
    assert Render(n) == Rep(n.slashes, '/') + body;
    SplitLeadingSeps(n.slashes, body, '/');
    if |n.comps| > 0 {
      SplitJoin(n.comps, '/');
    } else {
      assert body == "";
      assert Split(body, '/') == [""];
    }
  }

  lemma NormalizeRenderDot()
    ensures Normalize(Render(NormPath(0, []))) == NormPath(0, [])
  {
    assert Render(NormPath(0, [])) == ".";
    assert !StartsWith(".", "/") by {
      assert "."[..1] == ".";
    }
    assert Split(".", '/') == ["."];
    assert NormComps(["."], false, []) == NormComps([], false, []) == [];
  }

  lemma NormalizeRenderComps(n: NormPath)
    requires NormalForm(n) && |n.comps| > 0
    ensures Normalize(Render(n)) == n
  {
    var rooted := n.slashes > 0;
    InitialSlashesRender(n);
    SplitRender(n);
    NormCompsSkipsEmpty(n.slashes, n.comps, rooted);
    NormCompsIdentity(n.comps, rooted, []);
    assert [] + n.comps == n.comps;
  }

  lemma NormalizeRenderRoot(n: NormPath)
    requires NormalForm(n) && |n.comps| == 0 && n.slashes > 0
    ensures Normalize(Render(n)) == n
  {
    InitialSlashesRender(n);
    SplitRender(n);
    assert Rep(n.slashes, "") + [""] == Rep(n.slashes + 1, "") + [];
    NormCompsSkipsEmpty(n.slashes + 1, [], true);
  }

  /** Normal forms are fixed points: normalising a rendered normal form gives it back. */
  lemma NormalizeRender(n: NormPath)
    requires NormalForm(n)
    ensures Normalize(Render(n)) == n
  {
    if |n.comps| > 0 {
      NormalizeRenderComps(n);
    } else if n.slashes > 0 {
      NormalizeRenderRoot(n);
    } else {
      NormalizeRenderDot();
    }
  }

  /** `normpath` is idempotent. */
  lemma NormpathIdempotent(p: string)
    ensures Normpath(Normpath(p)) == Normpath(p)
  {
    NormalizeNormal(p);
    NormalizeRender(Normalize(p));
  }

  /**
    With an absolute working directory, `abspath` yields an absolute path with
    no `.`, `..` or empty component, and applying it again changes nothing.
   */
  lemma AbspathNormal(cwd: string, p: string)
    requires IsAbs(cwd)
    ensures AbsNormalize(cwd, p).slashes > 0
    ensures AllPlain(AbsNormalize(cwd, p).comps)
    ensures IsAbs(Abspath(cwd, p))
    ensures Abspath(cwd, Abspath(cwd, p)) == Abspath(cwd, p)
  {
    var q := if IsAbs(p) then p else PathJoin(cwd, p);
    assert !IsAbs(p) ==> StartsWith(q, cwd) && q[0] == cwd[0];
    assert IsAbs(q);
    assert InitialSlashes(q) > 0;
    NormalizeNormal(q);
    var n := Normalize(q);
    assert Render(n)[0] == '/';
    NormalizeRender(n);
  }

  // ---------------------------------------------------------------------------
  // commonprefix

  /** The longest common prefix of two strings, character by character. */
  function Lcp(a: string, b: string): (r: string)
    ensures StartsWith(a, r) && StartsWith(b, r)
    ensures |r| == |a| || |r| == |b| || a[|r|] != b[|r|]
    decreases |a|
  {
    if |a| == 0 || |b| == 0 || a[0] != b[0] then ""
    else [a[0]] + Lcp(a[1..], b[1..])
  }

  /**
    `os.path.commonprefix([a, b])`: the common prefix of the least and the
    greatest of the two strings under Python's ordering.
   */
  function CommonPrefix(a: string, b: string): string
  {
    if LexLe(a, b) then Lcp(a, b) else Lcp(b, a)
  }

  lemma {:induction false} LcpSymmetric(a: string, b: string)
    ensures Lcp(a, b) == Lcp(b, a)
    decreases |a|
  {
    if |a| > 0 && |b| > 0 && a[0] == b[0] {
      LcpSymmetric(a[1..], b[1..]);
    }
  }

  lemma {:induction false} LcpOfPrefix(a: string, b: string)
    requires StartsWith(b, a)
    ensures Lcp(a, b) == a
    decreases |a|
  {
    if |a| > 0 {
      assert b[0] == a[0];
      assert b[1..][..|a| - 1] == a[1..];
      LcpOfPrefix(a[1..], b[1..]);
      assert a == [a[0]] + a[1..];
    }
  }

  /** The common prefix equals its first argument exactly when that argument is a prefix of the second. */
  lemma CommonPrefixIsFirstIff(a: string, b: string)
    ensures CommonPrefix(a, b) == a <==> StartsWith(b, a)
  {
    LcpSymmetric(a, b);
    if StartsWith(b, a) {
      LcpOfPrefix(a, b);
    }
  }

  // ---------------------------------------------------------------------------
  // relpath and abs_to_rel

  /** The components left after dropping empty ones (`[x for x in parts if x]`). */
  function NonEmptyParts(parts: seq<string>): (r: seq<string>)
    decreases |parts|
  {
    if |parts| == 0 then []
    else (if parts[0] == "" then [] else [parts[0]]) + NonEmptyParts(parts[1..])
  }

  /** Length of the longest common prefix of two component lists. */
  function CommonLen(xs: seq<string>, ys: seq<string>): (n: nat)
    ensures n <= |xs| && n <= |ys| && xs[..n] == ys[..n]
    ensures n == |xs| || n == |ys| || xs[n] != ys[n]
    decreases |xs|
  {
    if |xs| == 0 || |ys| == 0 || xs[0] != ys[0] then 0
    else
      var k := CommonLen(xs[1..], ys[1..]);
      assert xs[..k + 1] == [xs[0]] + xs[1..][..k];
      assert ys[..k + 1] == [ys[0]] + ys[1..][..k];
      k + 1
  }

  datatype PathError = NoPathSpecified

  /**
    `posixpath.relpath(path, start)`: climb with `..` out of `start` to the
    components both share, then descend into the rest of `path`. An empty
    `path` raises `ValueError`.
   */
  function RelPath(cwd: string, path: string, start: string): Result<string, PathError>
  {
    if path == "" then Err(NoPathSpecified)
    else
      Ok(RelOfParts(NonEmptyParts(Split(Abspath(cwd, start), '/')), NonEmptyParts(Split(Abspath(cwd, path), '/'))))
  }

  /** The step of `relpath` after both paths are lists of components: climb out of what is not shared, then descend. */
  function RelOfParts(startList: seq<string>, pathList: seq<string>): string
  {
    var i := CommonLen(startList, pathList);
    var rel := Rep(|startList| - i, "..") + pathList[i..];
    if |rel| == 0 then "." else PathJoinAll(rel[0], rel[1..])
  }

  /** `abs_to_rel(startpath, path)`: the relative path, prefixed with `./`. */
  function AbsToRel(cwd: string, startpath: string, path: string): Result<string, PathError>
  {
    match RelPath(cwd, path, startpath)
    case Ok(r) => Ok(PathJoin(".", r))
    case Err(e) => Err(e)
  }

  /** `relpath`, and so `abs_to_rel`, fails only on an empty path. */
  lemma AbsToRelFailsOnlyOnEmpty(cwd: string, startpath: string, path: string)
    ensures AbsToRel(cwd, startpath, path).Err? <==> path == ""
  {
  }

  lemma PartsOfAbsPath(cs: seq<string>)
    requires AllPlain(cs)
    ensures NonEmptyParts(Split(AbsPathOf(cs), '/')) == cs
  {
    var body := Join(cs, '/');
    assert AbsPathOf(cs) == seq(1, _ => '/') + body;
    SplitLeadingSeps(1, body, '/');
    var parts := Split(AbsPathOf(cs), '/');
    assert parts == [""] + Split(body, '/');
    assert parts[1..] == Split(body, '/');
    if |cs| > 0 {
      SplitJoin(cs, '/');
      NonEmptyPartsOfPlain(cs);
    } else {
      assert Split(body, '/') == [""];
    }
  }

  lemma {:induction false} NonEmptyPartsOfPlain(cs: seq<string>)
    requires AllPlain(cs)
    ensures NonEmptyParts(cs) == cs
    decreases |cs|
  {
    if |cs| > 0 {
      NonEmptyPartsOfPlain(cs[1..]);
      assert cs == [cs[0]] + cs[1..];
    }
  }

  lemma JoinMerge(a: string, b: string, t: seq<string>, sep: char)
    ensures Join([a + [sep] + b] + t, sep) == Join([a, b] + t, sep)
  {
    assert ([a, b] + t)[1..] == [b] + t;
    if |t| > 0 {
      assert ([a + [sep] + b] + t)[1..] == t;
      assert ([b] + t)[1..] == t;
    }
  }

  lemma PlainNotAbs(c: string)
    requires Plain(c)
    ensures !StartsWith(c, "/")
    ensures c[0] != '/' && c[|c| - 1] != '/'
  {
    assert c[0] in c && c[|c| - 1] in c;
  }

  lemma {:induction false} PathJoinAllPlain(first: string, rest: seq<string>)
    requires first != "" && first[|first| - 1] != '/'
    requires AllPlain(rest)
    ensures PathJoinAll(first, rest) == Join([first] + rest, '/')
    decreases |rest|
  {
    if |rest| > 0 {
      PlainNotAbs(rest[0]);
      var j := PathJoin(first, rest[0]);
      assert j == first + "/" + rest[0];
      assert j[|j| - 1] == rest[0][|rest[0]| - 1];
      PathJoinAllPlain(j, rest[1..]);
      JoinMerge(first, rest[0], rest[1..], '/');
      assert [first, rest[0]] + rest[1..] == [first] + rest;
    }
  }

  lemma AllPlainAppend(a: seq<string>, b: seq<string>)
    requires AllPlain(a) && AllPlain(b)
    ensures AllPlain(a + b)
  {
    forall i | 0 <= i < |a + b|
      ensures Plain((a + b)[i])
    {
      if i < |a| { assert (a + b)[i] == a[i]; } else { assert (a + b)[i] == b[i - |a|]; }
    }
  }

  /** The component lists `relpath` computes for an absolute path it is given. */
  lemma RelPathListOf(cwd: string, cs: seq<string>)
    requires AllPlain(cs)
    ensures NonEmptyParts(Split(Abspath(cwd, AbsPathOf(cs)), '/')) == cs
  {
    AbsOfAbsPath(cwd, cs);
    PartsOfAbsPath(cs);
  }

  lemma CommonLenOfExtension(rc: seq<string>, rs: seq<string>)
    ensures CommonLen(rc, rc + rs) == |rc|
  {
    var all := rc + rs;
    var i := CommonLen(rc, all);
    assert all[..|rc|] == rc;
    assert forall k :: 0 <= k < |rc| ==> rc[k] == all[k];
  }

  /** `relpath` from an absolute directory to a path below it is the components below it, joined. */
  lemma RelPathBelow(cwd: string, rc: seq<string>, rs: seq<string>)
    requires AllPlain(rc) && AllPlain(rs) && |rs| > 0
    ensures RelPath(cwd, AbsPathOf(rc + rs), AbsPathOf(rc)) == Ok(Join(rs, '/'))
  {
    var all := rc + rs;
    AllPlainAppend(rc, rs);
    RelPathListOf(cwd, rc);
    RelPathListOf(cwd, all);
    assert AbsPathOf(all)[0] == '/';
    CommonLenOfExtension(rc, rs);
    assert Rep(0, "..") + all[|rc|..] == rs;
    JoinAllPlain(rs);
  }

  /** Joining non-empty plain components one by one is joining them with `/`. */
  lemma JoinAllPlain(rs: seq<string>)
    requires AllPlain(rs) && |rs| > 0
    ensures PathJoinAll(rs[0], rs[1..]) == Join(rs, '/')
  {
    PlainNotAbs(rs[0]);
    PathJoinAllPlain(rs[0], rs[1..]);
    assert [rs[0]] + rs[1..] == rs;
  }

  lemma PathJoinDot(j: string)
    requires !StartsWith(j, "/")
    ensures PathJoin(".", j) == "./" + j
  {
  }

  /**
    For a file `rs` levels below an absolute directory `rc`, `abs_to_rel`
    yields `./` followed by the components below the directory, whatever the
    working directory.
   */
  lemma AbsToRelBelow(cwd: string, rc: seq<string>, rs: seq<string>)
    requires AllPlain(rc) && AllPlain(rs) && |rs| > 0
    ensures AbsToRel(cwd, AbsPathOf(rc), AbsPathOf(rc + rs)) == Ok("./" + Join(rs, '/'))
  {
    RelPathBelow(cwd, rc, rs);
    var j := Join(rs, '/');
    JoinStartsWith(rs, '/');
    PlainNotAbs(rs[0]);
    assert j[0] == rs[0][0];
    assert !StartsWith(j, "/");
    PathJoinDot(j);
  }

  lemma AbsOfAbsPath(cwd: string, cs: seq<string>)
    requires AllPlain(cs)
    ensures Abspath(cwd, AbsPathOf(cs)) == AbsPathOf(cs)
  {
    assert NormalForm(NormPath(1, cs));
    NormalizeRender(NormPath(1, cs));
    assert AbsPathOf(cs)[0] == '/';
  }

  // ---------------------------------------------------------------------------
  // basename and splitext

  /** `str.rfind(c)`: the last index of `c`, or -1. */
  function RFind(s: string, c: char): (r: int)
    ensures -1 <= r < |s|
    ensures r >= 0 ==> s[r] == c
    ensures forall k :: r < k < |s| ==> s[k] != c
    decreases |s|
  {
    if |s| == 0 then -1
    else if s[|s| - 1] == c then |s| - 1
    else RFind(s[..|s| - 1], c)
  }

  /** `posixpath.basename`: everything after the last `/`. */
  function Basename(p: string): (r: string)
    ensures '/' !in r
    ensures r == p || (|r| < |p| && p[|p| - |r| - 1] == '/' && p[|p| - |r|..] == r)
  {
    var i := RFind(p, '/');
    NoSepAfter(p, i);
    p[i + 1..]
  }

  /** The base name of a path whose last separator precedes `last`. */
  lemma BasenameAfterSep(x: string, last: string)
    requires '/' !in last
    ensures Basename(x + "/" + last) == last
  {
    var p := x + "/" + last;
    var r := Basename(p);
    assert p[|x|] == '/';
    assert r != p;
    assert p[|p| - |last|..] == last;
  }

  /** The base name of an absolute path of plain components is its last component. */
  lemma BasenameOfAbsPath(cs: seq<string>)
    requires AllPlain(cs) && |cs| > 0
    ensures Basename(AbsPathOf(cs)) == cs[|cs| - 1]
  {
    var last := cs[|cs| - 1];
    assert Plain(last);
    var p := AbsPathOf(cs);
    assert p == "/" + Join(cs, '/');
    if |cs| == 1 {
      assert p == "" + "/" + last;
    } else {
      JoinLast(cs, '/');
      assert p == ("/" + Join(cs[..|cs| - 1], '/')) + "/" + last;
    }
    BasenameAfterSep(p[..|p| - |last| - 1], last);
    assert p == p[..|p| - |last| - 1] + "/" + last;
  }

  lemma NoSepAfter(p: string, i: int)
    requires -1 <= i < |p|
    requires forall k :: i < k < |p| ==> p[k] != '/'
    ensures '/' !in p[i + 1..]
  {
    var r := p[i + 1..];
    forall k | 0 <= k < |r|
      ensures r[k] != '/'
    {
      assert r[k] == p[i + 1 + k];
    }
  }

  /** Some character of `p[lo..hi]` is not a dot. */
  predicate HasNonDot(p: string, lo: nat, hi: nat)
    requires lo <= hi <= |p|
  {
    exists k :: lo <= k < hi && p[k] != '.'
  }

  /** The final component of `p`, from index `k` on, holds no separator. */
  predicate InLastComponent(p: string, k: nat)
    requires k <= |p|
  {
    '/' !in p[k..]
  }

  /**
    `posixpath.splitext`: the extension runs from the last `.` of the final
    component, provided that component holds something other than dots before
    it (so `.bashrc` has no extension).
   */
  function SplitExt(p: string): (r: (string, string))
    ensures r.0 + r.1 == p
    ensures r.1 == "" || (r.1[0] == '.' && '.' !in r.1[1..] && '/' !in r.1)
    ensures r.1 != "" ==> exists k :: 0 <= k < |r.0| && r.0[k] != '.' && InLastComponent(r.0, k)
    ensures r.1 == "" ==> forall i, k :: 0 <= k < i < |p| && p[i] == '.' && InLastComponent(p, k) ==> p[k] == '.'
  {
    var sepIndex := RFind(p, '/');
    var dotIndex := RFind(p, '.');
    if dotIndex > sepIndex && HasNonDot(p, sepIndex + 1, dotIndex) then
      SplitExtSome(p, sepIndex, dotIndex);
      (p[..dotIndex], p[dotIndex..])
    else
      SplitExtNone(p, sepIndex, dotIndex);
      (p, "")
  }

  lemma SplitExtSome(p: string, sepIndex: int, dotIndex: int)
    requires -1 <= sepIndex < dotIndex < |p|
    requires forall k :: sepIndex < k < |p| ==> p[k] != '/'
    requires p[dotIndex] == '.' && forall k :: dotIndex < k < |p| ==> p[k] != '.'
    requires HasNonDot(p, sepIndex + 1, dotIndex)
    ensures var e := p[dotIndex..]; e[0] == '.' && '.' !in e[1..] && '/' !in e
    ensures exists k :: 0 <= k < dotIndex && p[..dotIndex][k] != '.' && InLastComponent(p[..dotIndex], k)
  {
    var e := p[dotIndex..];
    forall m | 0 <= m < |e|
      ensures e[m] != '/' && (m > 0 ==> e[m] != '.')
    {
      assert e[m] == p[dotIndex + m];
    }
    var k :| sepIndex + 1 <= k < dotIndex && p[k] != '.';
    var q := p[..dotIndex];
    assert q[k] == p[k];
    forall m | 0 <= m < |q[k..]|
      ensures q[k..][m] != '/'
    {
      assert q[k..][m] == p[k + m];
    }
  }

  lemma SplitExtNone(p: string, sepIndex: int, dotIndex: int)
    requires -1 <= sepIndex < |p| && -1 <= dotIndex < |p|
    requires sepIndex >= 0 ==> p[sepIndex] == '/'
    requires forall k :: sepIndex < k < |p| ==> p[k] != '/'
    requires forall k :: dotIndex < k < |p| ==> p[k] != '.'
    requires !(dotIndex > sepIndex && HasNonDot(p, sepIndex + 1, dotIndex))
    ensures forall i, k :: 0 <= k < i < |p| && p[i] == '.' && InLastComponent(p, k) ==> p[k] == '.'
  {
    forall i, k | 0 <= k < i < |p| && p[i] == '.' && InLastComponent(p, k)
      ensures p[k] == '.'
    {
      assert forall m :: k <= m < |p| ==> p[m] != '/' by {
        forall m | k <= m < |p|
          ensures p[m] != '/'
        {
          assert p[k..][m - k] == p[m];
        }
      }
      assert sepIndex < k <= i <= dotIndex;
      assert !HasNonDot(p, sepIndex + 1, dotIndex);
    }
  }
}

=== FILE: results.dfy ===
/** Failure-carrying wrappers used in place of Python's `None` and exceptions. */
module Results {

  /** A value that may be absent (Python's `None`). */
  datatype Option<+T> = None | Some(value: T)

  /** The outcome of an operation that may raise: a value, or the error it raised. */
  datatype Result<+T, +E> = Ok(value: T) | Err(error: E)
}

=== FILE: strs.dfy ===
/**
  String and sequence helpers shared by the model: Python's ordering on `str`,
  sorting, `str.split` / `str.join`, substring search and clamped slicing.
 */
module Strs {

  /** Python's `a <= b` on `str`: lexicographic by code point, a proper prefix first. */
  predicate LexLe(a: string, b: string)
    decreases |a|
  {
    |a| == 0 || (|b| > 0 && (a[0] < b[0] || (a[0] == b[0] && LexLe(a[1..], b[1..]))))
  }

  lemma {:induction false} LexLeRefl(a: string)
    ensures LexLe(a, a)
    decreases |a|
  {
    if |a| > 0 {
      LexLeRefl(a[1..]);
    }
  }

  lemma {:induction false} LexLeAntisym(a: string, b: string)
    requires LexLe(a, b) && LexLe(b, a)
    ensures a == b
    decreases |a|
  {
    if |a| > 0 && |b| > 0 {
      LexLeAntisym(a[1..], b[1..]);
      assert a == [a[0]] + a[1..] && b == [b[0]] + b[1..];
    }
  }

  lemma {:induction false} LexLeTrans(a: string, b: string, c: string)
    requires LexLe(a, b) && LexLe(b, c)
    ensures LexLe(a, c)
    decreases |a|
  {
    if |a| > 0 && |b| > 0 && |c| > 0 && a[0] == b[0] && b[0] == c[0] {
      LexLeTrans(a[1..], b[1..], c[1..]);
    }
  }

  lemma {:induction false} LexLeTotal(a: string, b: string)
    ensures LexLe(a, b) || LexLe(b, a)
    decreases |a|
  {
    if |a| > 0 && |b| > 0 && a[0] == b[0] {
      LexLeTotal(a[1..], b[1..]);
    }
  }

  /** Ascending order under Python's string comparison. */
  predicate Sorted(s: seq<string>)
  {
    forall i, j :: 0 <= i < j < |s| ==> LexLe(s[i], s[j])
  }

  /** Inserts `x` into a sorted sequence, before the first element it does not exceed. */
  function Insert(x: string, s: seq<string>): (r: seq<string>)
    requires Sorted(s)
    ensures Sorted(r)
    ensures multiset(r) == multiset(s) + multiset{x}
    decreases |s|
  {
    if |s| == 0 then [x]
    else if LexLe(x, s[0]) then
      InsertFrontSorted(x, s);
      [x] + s
    else
      var t := Insert(x, s[1..]);
      LexLeTotal(x, s[0]);
      assert s == [s[0]] + s[1..];
      SortedBelow(s[0], s[1..], x, t);
      [s[0]] + t
  }

  lemma InsertFrontSorted(x: string, s: seq<string>)
    requires Sorted(s) && |s| > 0 && LexLe(x, s[0])
    ensures Sorted([x] + s)
  {
    forall j | 0 < j < |[x] + s|
      ensures LexLe(([x] + s)[0], ([x] + s)[j])
    {
      if j > 1 {
        LexLeTrans(x, s[0], s[j - 1]);
      }
    }
  }

  lemma SortedBelow(h: string, s: seq<string>, x: string, t: seq<string>)
    requires Sorted([h] + s) && LexLe(h, x) && Sorted(t)
    requires multiset(t) == multiset(s) + multiset{x}
    ensures Sorted([h] + t)
  {
    forall j | 0 <= j < |t|
      ensures LexLe(h, t[j])
    {
      assert t[j] in multiset(t);
      if t[j] != x {
        assert t[j] in multiset(s);
        assert t[j] in s;
        var k :| 0 <= k < |s| && s[k] == t[j];
        assert ([h] + s)[0] == h && ([h] + s)[k + 1] == s[k];
      }
    }
  }

  /** Python's `sorted` on a sequence of strings (stable insertion sort; repeats kept). */
  function Sort(s: seq<string>): (r: seq<string>)
    ensures Sorted(r)
    ensures multiset(r) == multiset(s)
    decreases |s|
  {
    if |s| == 0 then []
    else
      assert s == [s[0]] + s[1..];
      Insert(s[0], Sort(s[1..]))
  }

  /** The head of a sorted sequence is below every element of it. */
  lemma SortedHeadIsLeast(a: seq<string>, x: string)
    requires Sorted(a) && x in multiset(a)
    ensures LexLe(a[0], x)
  {
    var i :| 0 <= i < |a| && a[i] == x;
    if i == 0 {
      LexLeRefl(x);
    }
  }

  lemma MultisetTail<T>(a: seq<T>, b: seq<T>)
    requires |a| > 0 && |b| > 0 && a[0] == b[0] && multiset(a) == multiset(b)
    ensures multiset(a[1..]) == multiset(b[1..])
  {
    assert a == [a[0]] + a[1..] && b == [b[0]] + b[1..];
    assert multiset(a) == multiset{a[0]} + multiset(a[1..]);
    assert multiset(b) == multiset{b[0]} + multiset(b[1..]);
    assert multiset(a[1..]) == multiset(a) - multiset{a[0]};
  }

  /** Two sorted arrangements of the same multiset are the same sequence. */
  lemma {:induction false} SortedUnique(a: seq<string>, b: seq<string>)
    requires Sorted(a) && Sorted(b) && multiset(a) == multiset(b)
    ensures a == b
    decreases |a|
  {
    assert |a| == |multiset(a)| == |multiset(b)| == |b|;
    if |a| > 0 {
      assert a[0] in multiset(b) && b[0] in multiset(a);
      SortedHeadIsLeast(a, b[0]);
      SortedHeadIsLeast(b, a[0]);
      LexLeAntisym(a[0], b[0]);
      MultisetTail(a, b);
      SortedUnique(a[1..], b[1..]);
      assert a == [a[0]] + a[1..] && b == [b[0]] + b[1..];
    }
  }

  /** Sorting depends only on the multiset of its input, not its order. */
  lemma SortPermutation(a: seq<string>, b: seq<string>)
    requires multiset(a) == multiset(b)
    ensures Sort(a) == Sort(b)
  {
    SortedUnique(Sort(a), Sort(b));
  }

  /** `''.join(ss)`: concatenation with no separator. */
  function Concat(ss: seq<string>): (r: string)
    ensures |ss| == 0 ==> r == ""
    decreases |ss|
  {
    if |ss| == 0 then "" else ss[0] + Concat(ss[1..])
  }

  /** No element occurs twice. */
  predicate NoDup<T(==)>(s: seq<T>)
  {
    forall i, j :: 0 <= i < j < |s| ==> s[i] != s[j]
  }

  /** The elements of a sequence, as a set. */
  function Elems<T>(s: seq<T>): set<T>
  {
    set x | x in s
  }

  /** In a repetition-free sequence every element occurs exactly once. */
  lemma {:induction false} NoDupCount<T>(a: seq<T>, x: T)
    requires NoDup(a)
    ensures multiset(a)[x] == if x in a then 1 else 0
    decreases |a|
  {
    if |a| > 0 {
      assert a == [a[0]] + a[1..];
      assert NoDup(a[1..]) by {
        forall i, j | 0 <= i < j < |a[1..]|
          ensures a[1..][i] != a[1..][j]
        {
          assert a[1..][i] == a[i + 1] && a[1..][j] == a[j + 1];
        }
      }
      NoDupCount(a[1..], x);
      if x == a[0] {
        assert x !in a[1..] by {
          forall k | 0 <= k < |a[1..]|
            ensures a[1..][k] != x
          {
            assert a[1..][k] == a[k + 1];
          }
        }
      }
    }
  }

  /** Two repetition-free sequences over the same elements are permutations of each other. */
  lemma NoDupSameSet<T>(a: seq<T>, b: seq<T>)
    requires NoDup(a) && NoDup(b) && Elems(a) == Elems(b)
    ensures multiset(a) == multiset(b)
  {
    forall x
      ensures multiset(a)[x] == multiset(b)[x]
    {
      NoDupCount(a, x);
      NoDupCount(b, x);
      assert x in a <==> x in Elems(a);
      assert x in b <==> x in Elems(b);
    }
  }

  /** Python's `str.join` with a one-character separator. */
  function Join(parts: seq<string>, sep: char): string
    decreases |parts|
  {
    if |parts| == 0 then ""
    else if |parts| == 1 then parts[0]
    else parts[0] + [sep] + Join(parts[1..], sep)
  }

  /** Index of the first occurrence of `c` in `s`. */
  function IndexOf(s: string, c: char): (i: nat)
    requires c in s
    ensures i < |s| && s[i] == c && c !in s[..i]
  {
    if s[0] == c then 0
    else
      assert s == [s[0]] + s[1..];
      var k := IndexOf(s[1..], c);
      assert s[..k + 1] == [s[0]] + s[1..][..k];
      k + 1
  }

  /** Python's `s.split(sep)`: every piece, empty ones included; never an empty list. */
  function Split(s: string, sep: char): (r: seq<string>)
    ensures |r| >= 1
    ensures forall i :: 0 <= i < |r| ==> sep !in r[i]
    ensures Join(r, sep) == s
    decreases |s|
  {
    if sep !in s then [s]
    else
      var i := IndexOf(s, sep);
      var rest := Split(s[i + 1..], sep);
      assert s == s[..i] + [sep] + s[i + 1..];
      [s[..i]] + rest
  }

  /** Splitting undoes joining when no part holds the separator. */
  lemma {:induction false} SplitJoin(parts: seq<string>, sep: char)
    requires |parts| >= 1
    requires forall i :: 0 <= i < |parts| ==> sep !in parts[i]
    ensures Split(Join(parts, sep), sep) == parts
    decreases |parts|
  {
    if |parts| == 1 {
    } else {
      var s := Join(parts, sep);
      assert s == parts[0] + [sep] + Join(parts[1..], sep);
      SplitAtFirst(s, sep, parts[0], Join(parts[1..], sep));
      SplitJoin(parts[1..], sep);
      assert parts == [parts[0]] + parts[1..];
    }
  }

  /** Joining peels off the last part as well as the first. */
  lemma {:induction false} JoinLast(parts: seq<string>, sep: char)
    requires |parts| >= 2
    ensures Join(parts, sep) == Join(parts[..|parts| - 1], sep) + [sep] + parts[|parts| - 1]
    decreases |parts|
  {
    var n := |parts|;
    if n == 2 {
      assert parts[..1] == [parts[0]];
    } else {
      JoinLast(parts[1..], sep);
      assert parts[1..][..n - 2] == parts[..n - 1][1..];
    }
  }

  /** Splitting at the first separator: the piece before it, then the split of the rest. */
  lemma SplitAtFirst(s: string, sep: char, a: string, t: string)
    requires sep !in a && s == a + [sep] + t
    ensures Split(s, sep) == [a] + Split(t, sep)
  {
    assert s[|a|] == sep;
    var i := IndexOf(s, sep);
    assert s[..i] == a;
    assert s[i + 1..] == t;
  }

  /** `[x] * n`: `n` copies of `x`. */
  function Rep<T>(n: nat, x: T): (r: seq<T>)
    ensures |r| == n
    ensures forall i :: 0 <= i < n ==> r[i] == x
    decreases n
  {
    if n == 0 then [] else [x] + Rep(n - 1, x)
  }

  /** `s.startswith(p)`. */
  predicate StartsWith(s: string, p: string)
  {
    |p| <= |s| && s[..|p|] == p
  }

  /** `s.endswith(p)`. */
  predicate EndsWith(s: string, p: string)
  {
    |p| <= |s| && s[|s| - |p|..] == p
  }

  /** `needle` occurs in `hay` starting at index `i`. */
  predicate OccursAt(hay: string, needle: string, i: nat)
  {
    i + |needle| <= |hay| && hay[i..i + |needle|] == needle
  }

  /** Python's `needle in hay` for strings. */
  function Contains(hay: string, needle: string): (r: bool)
    ensures r <==> exists i: nat :: OccursAt(hay, needle, i)
    decreases |hay|
  {
    if |needle| > |hay| then false
    else if hay[..|needle|] == needle then
      assert OccursAt(hay, needle, 0);
      true
    else if |hay| == 0 then false
    else
      var r := Contains(hay[1..], needle);
      assert r ==> exists i: nat :: OccursAt(hay, needle, i) by {
        if r {
          var i: nat :| OccursAt(hay[1..], needle, i);
          assert hay[i + 1..i + 1 + |needle|] == hay[1..][i..i + |needle|];
          assert OccursAt(hay, needle, i + 1);
        }
      }
      assert (exists i: nat :: OccursAt(hay, needle, i)) ==> r by {
        if exists i: nat :: OccursAt(hay, needle, i) {
          var i: nat :| OccursAt(hay, needle, i);
          assert i != 0;
          assert hay[1..][i - 1..i - 1 + |needle|] == hay[i..i + |needle|];
          assert OccursAt(hay[1..], needle, i - 1);
        }
      }
      r
  }

  /** Python's slice `s[i:j]` for non-negative bounds: out-of-range bounds are clamped. */
  function Slice(s: string, i: nat, j: nat): (r: string)
    ensures |r| <= |s| && |r| <= j
    ensures i <= j <= |s| ==> r == s[i..j]
    ensures forall k :: 0 <= k < |r| ==> i + k < |s| && r[k] == s[i + k]
  {
    var lo := if i < |s| then i else |s|;
    var hi := if j < |s| then j else |s|;
    if lo < hi then s[lo..hi] else ""
  }
}

=== FILE: vercode.dfy ===
/**
  The SPDX package verification code of `gen_ver_code` (dosocs2/util.py:174-180):
  drop the excluded hashes, sort the rest, join them with no separator and
  hash the result with SHA-1. SHA-1 itself is the parameter `sha1`, an
  uninterpreted function; everything before it is modelled exactly.
 */
module VerCode {
  import opened Results
  import opened Strs

  /** The hashes that are not excluded, in input order; repeated hashes are kept. */
  function Kept(hashes: seq<string>, excluded: set<string>): seq<string>
    decreases |hashes|
  {
    if |hashes| == 0 then []
    else (if hashes[0] in excluded then [] else [hashes[0]]) + Kept(hashes[1..], excluded)
  }

  /** Each hash keeps its multiplicity unless it is excluded, in which case it is gone. */
  lemma {:induction false} KeptCount(hashes: seq<string>, excluded: set<string>)
    ensures forall h :: multiset(Kept(hashes, excluded))[h] == if h in excluded then 0 else multiset(hashes)[h]
    decreases |hashes|
  {
    if |hashes| > 0 {
      KeptCount(hashes[1..], excluded);
      assert hashes == [hashes[0]] + hashes[1..];
      var head := if hashes[0] in excluded then [] else [hashes[0]];
      assert multiset(Kept(hashes, excluded)) == multiset(head) + multiset(Kept(hashes[1..], excluded));
    }
  }

  /** `excluded_hashes=None` is replaced by the empty set. */
  function Exclusions(excluded: Option<set<string>>): set<string>
  {
    if excluded.None? then {} else excluded.value
  }

  /** The string that is hashed: the kept hashes in sorted order, concatenated. */
  function HashBlob(hashes: seq<string>, excluded: Option<set<string>>): string
  {
    Concat(Sort(Kept(hashes, Exclusions(excluded))))
  }

  /** `gen_ver_code(hashes, excluded_hashes)`. */
  function GenVerCode(sha1: string -> string, hashes: seq<string>, excluded: Option<set<string>>): string
  {
    sha1(HashBlob(hashes, excluded))
  }

  /** Sum of the lengths of the strings. */
  function TotalLen(ss: seq<string>): nat
    decreases |ss|
  {
    if |ss| == 0 then 0 else |ss[0]| + TotalLen(ss[1..])
  }

  lemma {:induction false} ConcatLength(ss: seq<string>)
    ensures |Concat(ss)| == TotalLen(ss)
    decreases |ss|
  {
    if |ss| > 0 {
      ConcatLength(ss[1..]);
    }
  }

  lemma {:induction false} InsertLength(x: string, s: seq<string>)
    requires Sorted(s)
    ensures TotalLen(Insert(x, s)) == |x| + TotalLen(s)
    decreases |s|
  {
    if |s| > 0 && !LexLe(x, s[0]) {
      InsertLength(x, s[1..]);
      assert Insert(x, s)[1..] == Insert(x, s[1..]);
    } else if |s| > 0 {
      assert ([x] + s)[1..] == s;
    }
  }

  lemma {:induction false} SortLength(s: seq<string>)
    ensures TotalLen(Sort(s)) == TotalLen(s)
    decreases |s|
  {
    if |s| > 0 {
      SortLength(s[1..]);
      InsertLength(s[0], Sort(s[1..]));
    }
  }

  lemma {:induction false} KeptAppend(a: seq<string>, b: seq<string>, excluded: set<string>)
    ensures Kept(a + b, excluded) == Kept(a, excluded) + Kept(b, excluded)
    decreases |a|
  {
    if |a| > 0 {
      var h := if a[0] in excluded then [] else [a[0]];
      assert (a + b)[0] == a[0];
      assert (a + b)[1..] == a[1..] + b;
      assert Kept(a + b, excluded) == h + Kept(a[1..] + b, excluded);
      assert Kept(a, excluded) == h + Kept(a[1..], excluded);
      KeptAppend(a[1..], b, excluded);
    } else {
      assert a + b == b;
    }
  }

  /**
    Order independence: the code depends only on the multiset of input hashes,
    because the kept hashes are sorted before they are joined.
   */
  lemma OrderIndependent(sha1: string -> string, a: seq<string>, b: seq<string>, excluded: Option<set<string>>)
    requires multiset(a) == multiset(b)
    ensures GenVerCode(sha1, a, excluded) == GenVerCode(sha1, b, excluded)
  {
    var e := Exclusions(excluded);
    KeptCount(a, e);
    KeptCount(b, e);
    assert multiset(Kept(a, e)) == multiset(Kept(b, e));
    SortPermutation(Kept(a, e), Kept(b, e));
  }

  /**
    Excluded hashes never contribute: two inputs that hold every non-excluded
    hash equally often yield the same code, however many excluded hashes either holds.
   */
  lemma ExcludedNeverContribute(sha1: string -> string, a: seq<string>, b: seq<string>, excluded: set<string>)
    requires forall h :: h !in excluded ==> multiset(a)[h] == multiset(b)[h]
    ensures GenVerCode(sha1, a, Some(excluded)) == GenVerCode(sha1, b, Some(excluded))
  {
    KeptCount(a, excluded);
    KeptCount(b, excluded);
    assert multiset(Kept(a, excluded)) == multiset(Kept(b, excluded));
    SortPermutation(Kept(a, excluded), Kept(b, excluded));
  }

  /**
    `None` behaves exactly like the empty exclusion set, and excluding `E`
    is the same as first removing the hashes in `E` and excluding nothing.
   */
  lemma ExclusionSemantics(sha1: string -> string, hashes: seq<string>, excluded: set<string>)
    ensures GenVerCode(sha1, hashes, None) == GenVerCode(sha1, hashes, Some({}))
    ensures GenVerCode(sha1, hashes, Some(excluded)) == GenVerCode(sha1, Kept(hashes, excluded), None)
  {
    var k := Kept(hashes, excluded);
    KeptCount(k, {});
    assert multiset(Kept(k, {})) == multiset(k);
    SortPermutation(Kept(k, {}), k);
  }

  /** An empty input, or one whose every hash is excluded, is hashed as the empty string. */
  lemma AllExcludedHashesEmpty(sha1: string -> string, hashes: seq<string>, excluded: Option<set<string>>)
    requires forall i :: 0 <= i < |hashes| ==> hashes[i] in Exclusions(excluded)
    ensures GenVerCode(sha1, hashes, excluded) == sha1("")
  {
    var k := Kept(hashes, Exclusions(excluded));
    KeptCount(hashes, Exclusions(excluded));
    assert multiset(k) == multiset{} by {
      forall h
        ensures multiset(k)[h] == 0
      {
        if h in multiset(hashes) {
          var i :| 0 <= i < |hashes| && hashes[i] == h;
        }
      }
    }
    assert |k| == |multiset(k)| == 0;
  }

  /** The blob holds each kept hash once per occurrence: its length is their total length. */
  lemma BlobLength(hashes: seq<string>, excluded: Option<set<string>>)
    ensures |HashBlob(hashes, excluded)| == TotalLen(Kept(hashes, Exclusions(excluded)))
  {
    var k := Kept(hashes, Exclusions(excluded));
    ConcatLength(Sort(k));
    SortLength(k);
  }

  /** Adding a hash that is not excluded lengthens the blob by exactly that hash. */
  lemma AddedHashExtendsBlob(hashes: seq<string>, h: string, excluded: set<string>)
    requires h !in excluded
    ensures |HashBlob(hashes + [h], Some(excluded))| == |HashBlob(hashes, Some(excluded))| + |h|
  {
    BlobLength(hashes + [h], Some(excluded));
    BlobLength(hashes, Some(excluded));
    var k := Kept(hashes, excluded);
    KeptAppend(hashes, [h], excluded);
    assert Kept([h], excluded) == [h];
    TotalLenAppend(k, [h]);
    assert TotalLen([h]) == |h|;
  }

  lemma {:induction false} TotalLenAppend(a: seq<string>, b: seq<string>)
    ensures TotalLen(a + b) == TotalLen(a) + TotalLen(b)
    decreases |a|
  {
    if |a| > 0 {
      assert (a + b)[1..] == a[1..] + b;
      TotalLenAppend(a[1..], b);
    } else {
      assert a + b == b;
    }
  }

  /** Repeated hashes are not collapsed: a second copy of a hash changes the blob. */
  lemma DuplicatesNotCollapsed(h: string, excluded: set<string>)
    requires h != "" && h !in excluded
    ensures HashBlob([h, h], Some(excluded)) != HashBlob([h], Some(excluded))
  {
    AddedHashExtendsBlob([h], h, excluded);
    assert [h] + [h] == [h, h];
  }
}
